=== FILE: README.md ===
# space-Olimpic game rules in Dafny

A model of the rules behind the space-Olimpic puzzle race. Players join a room
by its four-digit code, type answers to 18 riddles, and earn 100 points for
each riddle they solve. The host watches a leaderboard, a stopwatch and a
podium of group scores. Two parts of the program carry the rules:

- **The player and host pages (`script.js`)**, written as pure functions over
  explicit inputs instead of page globals:
  - answer normalisation (`normalize`);
  - the search of the question table in `handleCheck`;
  - the score and finish bookkeeping;
  - adoption of a group's answered set;
  - the checks `joinGame` makes before joining, the name block-list among them;
  - group score aggregation, the podium and the leader indicator;
  - the host's leaderboard sort;
  - the host's and the player's stopwatch arithmetic, and the host's tick
    against the state its session holds.
- **The room store (`game-manager.js`)**. Each `GameManager` method is a
  transformer over an abstract copy of the realtime database: a map from room
  code to room document, plus the fields one client keeps in its instance.
  Firebase `set` replaces a node. `update` overwrites the listed children,
  keeps the others, and creates the node when it is missing. `push` appends.
  Clock readings and random draws are parameters.

Modules, one file each:

| module | file | what it holds |
|---|---|---|
| `JsBuiltins` | `js_builtins.dfy` | the JavaScript runtime pieces the rules use: truthiness, `trim`, ASCII `toLowerCase`, integer `toString` and its inverse, `padStart`, the truncating `%` |
| `StableSort` | `stable_sort.dfy` | `Array.prototype.sort` with a descending-key comparator, as a stable insertion sort |
| `Answers` | `answers.dfy` | `normalize`, the question table, and the matching loop |
| `PlayerProgress` | `player_progress.dfy` | the player page's answered set and score, `handleCheck`, group snapshots, the join checks |
| `Leaderboard` | `leaderboard.dfy` | group tally, `Object.values` key order, podium, leader indicator, player leaderboard |
| `Stopwatch` | `stopwatch.dfy` | the stopwatch arithmetic and displays shared by host and player |
| `HostClock` | `host_clock.dfy` | the host's stopwatch tick against the session it runs in |
| `Rooms` | `rooms.dfy` | `GameManager` as state transformers |
| `PlayerFlow` | `player_flow.dfy` | the player page driving `GameManager`: `joinGame` end to end, the calls of `handleCheck` replayed on the store, and what the group views see |

Four behaviours of the code shape the model. They are modelled as written:

- **Groups are never stored.** `joinRoom` takes only a code and a name, so
  the group passed at script.js:414 is dropped. No `GameManager` method
  writes group data.
  - `PlayerFlow.GroupChoiceIsDropped` shows the group choice makes no
    difference.
  - `PlayerFlow.PodiumShowsOnlyUnassigned` shows every stored player lands in
    the `'Unassigned'` bucket.
- **`listenToGroupProgress` is not a method of `GameManager`.** The call at
  script.js:443 throws, so the group-snapshot callback is never installed.
  `PlayerProgress.AdoptSnapshot` models what that callback would do. The
  initial group read at script.js:416-425 never finds data, as
  `Rooms.NoGroupDataEver` and `PlayerFlow.JoinGameIsJoinRoom` show.
- **`updateGroupProgress` is not a method of `GameManager` either.** See
  Findings.
- **The host never caches the room's state.** Only `listenToGameState`
  (game-manager.js:107-118) fills `gameState`, and only the player page
  registers it (script.js:429). The host's stopwatch therefore reads no start
  time. See Findings.

## Model

| member | source | states |
|---|---|---|
| `JsBuiltins.Trim` | script.js:390-391 | `trim`'s result is no longer than its input and neither starts nor ends with whitespace |
| `JsBuiltins.TrimCuts` | script.js:483 | `trim` keeps one contiguous slice of the input; everything cut from either end is whitespace |
| `JsBuiltins.TrimOfTrimmed` | script.js:483 | a string with no whitespace at either end is left alone by `trim` |
| `JsBuiltins.TrimPadded` | script.js:390 | `trim` of a word padded by whitespace on both sides is exactly the word |
| `JsBuiltins.LowerChar` | script.js:396 | lower-casing a character maps each ASCII capital to the letter 32 code points above it, leaves every other character alone, never yields an ASCII capital, and keeps whitespace |
| `JsBuiltins.Lower` | script.js:410 | `toLowerCase` keeps the length and lower-cases each character independently |
| `JsBuiltins.IntString` | script.js:226 | `toString` of an integer is non-empty: all digits when the integer is non-negative, a leading minus sign otherwise |
| `JsBuiltins.ParseNatString` | game-manager.js:13 | the decimal digits of a natural number read back as that number |
| `JsBuiltins.NatStringLength` | game-manager.js:13 | a number in `[10^(k-1), 10^k)` has exactly k decimal digits |
| `JsBuiltins.PadStartZero` | script.js:226 | `padStart(width, '0')` prepends exactly the zeros needed to reach the width, and nothing when the string is already that wide |
| `JsBuiltins.ParseLeadingZeros` | script.js:565 | leading zeros change neither digit-ness nor the value of a digit string |
| `JsBuiltins.JsRem` | script.js:223-224 | JavaScript `%` takes the sign of the dividend: for a non-negative dividend it is Euclidean `%`, in `[0, b)`; for a negative one it is minus the remainder of the dividend's magnitude, in `(-b, 0]` |
| `JsBuiltins.JsRemIsTruncating` | script.js:223-224 | `%` is the remainder of division rounded toward zero: the dividend is the divisor times the truncated quotient plus the remainder, which is smaller than the divisor in magnitude and zero or of the dividend's sign; negating the dividend negates both |
| `Answers.RemoveZeroWidth` | script.js:483 | deleting U+200B..U+200F and U+FEFF leaves no such character, adds none, and changes nothing when none is present |
| `Answers.Normalize` | script.js:481-484 | an empty input normalises to `""`; the result is no longer than the input and holds no ASCII capital and no zero-width character |
| `Answers.NormalizeCanonical` | script.js:481-484 | a string already trimmed, lower-case and free of zero-width characters is a fixed point of `normalize` |
| `Answers.NormalizeIdempotentWithoutZeroWidth` | script.js:481-484 | without zero-width characters in the input, `normalize`'s result is in normal form, so normalising twice equals normalising once |
| `Answers.NormalizeNotIdempotent` | script.js:483 | `normalize` is not idempotent in general: `"\u200B a"` normalises to `" a"`, which normalises further to `"a"` |
| `Answers.NormalizePadded` | script.js:481-484 | an answer surrounded by whitespace, with no zero-width character and no whitespace at either end of its own, normalises to exactly its lower case: every character is kept |
| `Answers.PaddedMoonAccepted` | script.js:497-498 | a capitalised or padded answer is accepted: `" Moon "` and `"MOON"` both answer question 1 |
| `Answers.FirstOpen` | script.js:494-502 | the loop returns -1 or an unanswered index that passes the test, and every unanswered index before it fails the test |
| `Answers.AnyAcceptedIff` | script.js:497-498 | `validAnswers.some(...)` holds exactly when some accepted answer normalises to the normalised input |
| `Answers.Match` | script.js:494-502 | the match is the smallest unanswered index whose question accepts the input, and -1 exactly when no unanswered question accepts it |
| `Answers.TableIsNormalized` | script.js:320-339 | the table has 18 questions, and question i accepts a value exactly when the value's normal form is listed for it |
| `Answers.AnswersCanonical` | script.js:320-339 | every accepted answer in the table is already in normal form |
| `Answers.DigitsAreNormal` | script.js:481-484 | a non-empty digit string is its own normal form |
| `Answers.TwelveListedAt` | script.js:323-324 | questions 2 and 3, and no others, accept "12" |
| `Answers.TwelveMatches` | script.js:494-502 | "12" matches question 2 while it is open, then question 3 while that is open, and nothing after that |
| `Answers.DuplicateAnswersConsumedInOrder` | script.js:494-502 | "12" first goes to question 2, then to question 3, then matches nothing |
| `StableSort.Insert` | script.js:270 | inserting into a sorted sequence keeps it sorted, adds one element, and puts the larger of the old head key and the new key in front |
| `StableSort.Sort` | script.js:270 | the sort's result is ordered by key, largest first, and has the input's length |
| `StableSort.SortPermutes` | script.js:270 | the sort's result is a permutation of its input |
| `StableSort.SortIsStable` | script.js:270 | elements with equal keys keep their input order |
| `StableSort.StableSortUnique` | script.js:270 | two sequences that are both sorted and agree on the order of each key's elements are equal, so the stable sort's result is unique |
| `StableSort.SortHeadIsMaximal` | script.js:270-272 | the first element of the sort has the largest key of the input |
| `Leaderboard.Find` | script.js:262 | looking up `groupScores[gId]` gives a bucket with that id, or -1 exactly when no bucket has it |
| `Leaderboard.Tally` | script.js:259-267 | the buckets have distinct ids; each holds its group's score sum and member count and has at least one member; every player's group has a bucket |
| `Leaderboard.TallyOrder` | script.js:259-267 | the buckets stand in the order in which their groups first appear among the players |
| `Leaderboard.TallyStep` | script.js:262-266 | adding one more player, to a new or an existing bucket, keeps all the properties of a tally |
| `Leaderboard.TallyPreservesTotal` | script.js:259-267 | the bucket scores add up to the sum of all players' scores |
| `Leaderboard.ObjectValues` | script.js:270 | `Object.values(groupScores)` is a permutation of the buckets: integer-like ids come first in ascending numeric order, and the other ids follow in creation order |
| `Leaderboard.FilterSplits` | script.js:270 | splitting the buckets by key kind keeps each bucket exactly once |
| `Leaderboard.RankPlayers` | script.js:187 | the host leaderboard is a stable permutation of the players, ordered by score descending, a missing score counting as 0 |
| `Leaderboard.GroupTally` | script.js:259-267 | the aggregation is a tally of the players in which each player counts toward their group when it is truthy and toward `'Unassigned'` otherwise, with a missing score counting as 0 |
| `Leaderboard.SortedGroups` | script.js:269 | the sorted groups are a permutation of the tally, ordered by score descending, and groups with equal totals keep their `Object.values` order |
| `Leaderboard.Podium` | script.js:271-287 | there are three slots, silver, gold and bronze; gold is the first sorted group with rank 1 when there is one, silver the second with rank 2 when there are two, bronze the third with rank 3 when there are three, and each slot is hidden otherwise |
| `Leaderboard.GroupPodium` | script.js:604 | a podium always has three slots |
| `Leaderboard.SortedHeadIsTop` | script.js:270-272 | with at least one player, the first sorted group has the highest total of all groups |
| `Leaderboard.PodiumOrder` | script.js:270-287 | there is a gold slot exactly when there is a player; gold has rank 1 and a top total; silver (rank 2) is not above gold and bronze (rank 3) is not above silver; every shown group is a bucket of the tally |
| `Leaderboard.Leader` | script.js:656-680 | a leader is shown only when some player has scored; its total is positive and it is a bucket of the tally |
| `Leaderboard.LeaderIsTop` | script.js:671-676 | the leader has the highest total of all groups |
| `Leaderboard.LeaderIffScored` | script.js:659-680 | when no score is negative, a leader is shown exactly when some player has a positive score |
| `Leaderboard.PositiveMember` | script.js:662-663 | with no negative scores, one member's positive score makes the group's total positive |
| `Leaderboard.Ungrouped` | script.js:259-267 | players without a group form the single `'Unassigned'` bucket, holding every player and all their points |
| `Stopwatch.Decompose` | script.js:222-224 | for a non-negative elapsed time, seconds are in 0..59 and tenths in 0..9, and the three fields account for the time to within 100 ms from below; for a negative one all fields are non-positive |
| `Stopwatch.DecomposeCovers` | script.js:222-224 | minutes, seconds and tenths together are at most the elapsed time and less than 100 ms short of it |
| `Stopwatch.DecomposeDeterminesTenth` | script.js:222-224 | two non-negative times with the same reading fall in the same tenth of a second |
| `Stopwatch.Pad2` | script.js:226 | each padded field is at least two characters |
| `Stopwatch.Pad2RoundTrip` | script.js:565 | a number below 100 is shown as exactly two digits that read back as it |
| `Stopwatch.HostDisplay` | script.js:226 | the host display is at least seven characters |
| `Stopwatch.PlayerDisplay` | script.js:565 | the player display is at least five characters |
| `Stopwatch.DecomposeDisplayable` | script.js:222-224 | below 100 minutes every field fits its display width |
| `Stopwatch.HostShows` | script.js:226 | a reading that fits is shown as exactly `MM:SS.t`, and each digit group reads back as its field |
| `Stopwatch.PlayerShows` | script.js:565 | a reading that fits is shown as exactly `MM:SS`, and each digit group reads back as its field |
| `Stopwatch.HostDisplayRoundTrip` | script.js:222-226 | below 100 minutes the host's format shows an elapsed time as `MM:SS.t`, which reads back as its minutes, seconds and tenths |
| `Stopwatch.HostShowsElapsed` | script.js:222-226 | below 100 minutes the host's display of an elapsed time is exactly `MM:SS.t`, reading back as minutes, seconds and tenths that account for the time to within 100 ms |
| `Stopwatch.PlayerDisplayRoundTrip` | script.js:561-565 | below 100 minutes the player's format shows an elapsed time as `MM:SS`, which reads back as its minutes and seconds |
| `Stopwatch.FutureStartReadsNegative` | script.js:221-224 | an elapsed time of -1 ms, from a start stamp in the future, gives the reading -1, -1, -1 |
| `HostClock.HostTick` | script.js:217-226 | a tick counts from the cached room's start time when it is present and non-zero, and from the tick's own first clock reading when nothing is cached |
| `HostClock.NothingCachesGameState` | game-manager.js:16-130 | no modelled write operation of the game manager (`Rooms.Op`: create, start, next, end, join, progress, finish, broadcast) fills the session's cached room state, so a session that starts without one never has one; the listener `listenToGameState` (game-manager.js:107-118), which does assign it, is not an `Op` |
| `HostClock.ShortSpanShowsZero` | script.js:222-226 | less than 100 ms of elapsed time is shown as `00:00.0` |
| `HostClock.UncachedTickShowsZero` | script.js:219-226 | with nothing cached, a tick whose two clock readings are less than 100 ms apart shows `00:00.0` |
| `HostClock.HostStopwatchStuck` | script.js:219 | after any run of operations from a fresh client, a host tick whose two clock readings are less than 100 ms apart shows `00:00.0`, however long ago the game started; this covers the host page because the host never registers `listenToGameState` (its one call is in `joinGame`, script.js:429, which only `initPlayer` exposes, script.js:349), a fact read from the source rather than proved |
| `HostClock.HostTickIntended` | script.js:217-226 | a tick that reads the start time of the room the session points at counts from it when it is present and non-zero |
| `HostClock.IntendedHostShowsElapsed` | script.js:229-237 | after `startGame` at a clock reading, the intended tick's display reads back as minutes, seconds and tenths that account for the time since that reading to within 100 ms, below 100 minutes |
| `Rooms.RoomCode` | game-manager.js:12-14 | the room code is four digits with no leading zero, and reads back as 1000 plus the draw |
| `Rooms.RoomCodeInjective` | game-manager.js:12-14 | different draws give different codes |
| `Rooms.CreateRoom` | game-manager.js:16-32 | `createRoom` writes a fresh room at the drawn code, replacing any room there: a lobby at question -1 for the given game, stamped now, with no start time, players, groups or stream; every other room is left alone; the session becomes host of that code |
| `Rooms.CreateRoomOverwrites` | game-manager.js:29 | a code already in use is not redrawn: the earlier room's players and stream are gone |
| `Rooms.StartGame` | game-manager.js:42-49 | without a room code nothing changes; otherwise, from any status, the room is playing at question 0 and started now, and its game, players, groups, stream and stamp are kept |
| `Rooms.NextQuestion` | game-manager.js:51-57 | without a room code nothing changes; otherwise only the question and the start time change |
| `Rooms.EndGame` | game-manager.js:59-64 | without a room code nothing changes; otherwise only the status changes, to finished |
| `Rooms.EndGameIdempotent` | game-manager.js:59-64 | ending a game twice is ending it once |
| `Rooms.FinishedGameRestarts` | game-manager.js:42-64 | there is no lifecycle guard: a finished game can be started again, back at question 0 |
| `Rooms.JoinRoom` | game-manager.js:68-87 | an unknown code fails with "Room not found" and changes nothing; otherwise exactly one player is added under `player_<suffix>`, holding the given name, score 0 and streak 0 and nothing else; other players and rooms are kept; the session points at the room and player |
| `Rooms.JoinAddsOnePlayer` | game-manager.js:76-86 | with a fresh id, joining grows the room's players by exactly one |
| `Rooms.UpdateOwn` | game-manager.js:92-96 | a write to the session's own player node changes that node only, creating the room and the node when they are missing |
| `Rooms.UpdateOwnTwice` | game-manager.js:92-96 | the node reads back as written, and a second write to it replaces the first |
| `Rooms.UpdateProgress` | game-manager.js:89-97 | without a room or player nothing changes; otherwise only the player's completed count, score and last-update stamp change, and name, streak and finish data are kept |
| `Rooms.SetPlayerFinished` | game-manager.js:99-105 | without a room or player nothing changes; otherwise only the player's finished flag, set to true, and finish time change |
| `Rooms.SetPlayerFinishedTwice` | game-manager.js:99-105 | finishing twice is finishing once at the later time |
| `Rooms.ProgressAndFinishCommute` | game-manager.js:89-105 | a progress write and a finish write commute |
| `Rooms.CachedName` | game-manager.js:126 | the name is the cached player's truthy name, `'Unknown'` when there is none, and an error when the cached room has no players |
| `Rooms.Message` | game-manager.js:124-129 | the message has the action's keys plus `playerId`, `name` and `timestamp`; action fields override `playerId` and `name`, which otherwise hold the player's id and name; the timestamp is always the fresh one |
| `Rooms.BroadcastAction` | game-manager.js:120-130 | without a room or player nothing changes; a name lookup that throws pushes nothing; otherwise exactly one message is appended, and the earlier stream and the rest of the store are kept |
| `Rooms.Apply` | game-manager.js:16-130 | no operation removes a room, leaves the session pointing at a missing room, or adds group data |
| `Rooms.RunInvariants` | game-manager.js:16-130 | along any run of operations, rooms are never removed, the session's room always exists, and no group data appears |
| `Rooms.NoGroupDataEver` | game-manager.js:16-130 | from an empty store and a new client, no room ever holds group data |
| `PlayerProgress.FinishCalls` | script.js:521-525 | the finish block issues only its two calls, two in all: it marks the player finished and then announces `player_finished`, both exactly when the answered count reaches the table size, and nothing otherwise |
| `PlayerProgress.Credit` | script.js:510-511 | a correct answer adds exactly one new index and exactly 100 points, and keeps the 100-points-per-answer invariant and the answered set within the table |
| `PlayerProgress.HandleCheck` | script.js:486-532 | an empty input does nothing; the answer is correct exactly when `Match` finds an unanswered question, which is then added with exactly 100 points; a wrong answer broadcasts one `answer_attempt` and changes nothing; a correct one reports progress first and never again, and issues nothing but that report and the finish block's calls, three calls in all when the finish block runs and one otherwise; it throws exactly when correct for a player with a group, and then the progress report is its only call; the player is marked finished, and `player_finished` announced, exactly when the answer is correct, the player has no group and the table is complete, and then these two are the last calls, in that order |
| `PlayerProgress.AfterCredit` | script.js:513-525 | after crediting, progress is reported first and the only other calls are the finish block's; a grouped player's call throws after the report alone; otherwise the player is marked finished and `player_finished` announced, as the last two calls, exactly when the table is complete; the list has three calls then and one otherwise, so the finish block runs at most once |
| `PlayerProgress.HandleCheckIntended` | script.js:486-532 | as `HandleCheck`, but nothing throws, a grouped player's progress is reported to the group, and every correct answer that completes the table marks the player finished and then announces it, as the last two calls; a correct answer issues nothing but the progress report, the group report for a grouped player, and the finish block's calls |
| `PlayerProgress.AfterCreditIntended` | script.js:513-525 | after crediting, progress is reported first, then the group report when there is a group; the player is marked finished and `player_finished` announced, as the last two calls, exactly when the table is complete; no other call is issued, and the list has one call, plus one for the group report, plus two for the finish block |
| `PlayerProgress.CompleteIffAllAnswered` | script.js:521 | within the table, the answered count never exceeds the table size, and reaching it means every question is answered |
| `PlayerProgress.CompleteAcceptsNothing` | script.js:494-504 | once every question is answered, no input matches |
| `PlayerProgress.Check` | script.js:486-532 | one check keeps the score invariant and the answered set within the table, and adds at most one answer |
| `PlayerProgress.RunChecks` | script.js:486-532 | over any sequence of inputs, the answered set only grows, and the score invariant and the table bound are kept |
| `PlayerProgress.AfterCreditAsWrittenFinishCount` | script.js:513-525 | as written, an ungrouped correct answer marks the player finished once, and announces it once, when it completes the table; a grouped one does neither |
| `PlayerProgress.StepFinishCount` | script.js:521-525 | one intended check marks the player finished once, and announces it once, if its answer completes the table, and does neither otherwise |
| `PlayerProgress.IntendedFinishesExactlyOnce` | script.js:521-525 | with the intended check, a run marks the player finished exactly once and announces `player_finished` exactly once if it completes the table, and does neither otherwise |
| `PlayerProgress.GroupedPlayerNeverFinishes` | script.js:514-525 | as written, no run of checks marks a player with a group finished or announces `player_finished` for them |
| `PlayerProgress.LastAnswerMatches` | script.js:338 | with questions 0..16 answered, "23" matches question 17 |
| `PlayerProgress.LastAnswerOfGroupedPlayer` | script.js:513-525 | as written, a grouped player's last answer completes the table, yet the check throws, and the player is neither marked finished nor announced |
| `PlayerProgress.LastAnswerOfGroupedPlayerIntended` | script.js:513-525 | with the intended check, the same answer throws nothing, ends with the player marked finished and then announced, and issues each of these two calls once |
| `PlayerProgress.AdoptSnapshot` | script.js:444-457 | only a snapshot with more distinct entries than the page's answered set is adopted: the answered set becomes exactly the snapshot's entries, the score becomes 100 per entry, progress is reported as the first call, and the only other call is `setPlayerFinished`, issued once exactly when the table is complete; otherwise nothing changes; the answered count never shrinks |
| `PlayerProgress.AdoptionIsNotUnion` | script.js:445-447 | adoption replaces rather than unites: a local answer missing from the snapshot is lost |
| `PlayerProgress.InitialSync` | script.js:417-424 | a grouped player's initial read replaces the answered set with the snapshot whatever its size, sets the score to 100 per entry, and reports progress once |
| `PlayerProgress.InitialSyncCanShrink` | script.js:420-422 | unlike the snapshot callback, the initial read can shrink the answered set |
| `PlayerProgress.DecideJoin` | script.js:390-412 | joining is refused when the trimmed name or code is empty, then when the lower-cased name contains a lower-cased block-list pattern, then when no group is chosen, then when some player stored in the room, under any id, has a name equal to the trimmed name up to ASCII case (nameless players are ignored); otherwise it proceeds with the trimmed name and code |
| `PlayerProgress.BlockedIffGal` | script.js:395-399 | the block-list refuses exactly the names whose lower case contains `gal` or its two-letter Hebrew spelling |
| `PlayerProgress.NameCheckIgnoresCaseAndSpace` | script.js:390-412 | a name differing from a stored one only in ASCII case and surrounding whitespace is refused |
| `PlayerProgress.StoredNameIsNotTrimmed` | script.js:410 | only the new name is trimmed: a stored name with trailing whitespace does not clash with the same name typed without it |
| `PlayerFlow.Perform` | script.js:513-523 | replaying the page's calls keeps the session, the set of rooms, and the absence of group data |
| `PlayerFlow.IssueAnnouncement` | game-manager.js:99-130 | finishing, broadcasting and the undefined group report leave the player's stored progress alone |
| `PlayerFlow.AnnouncementsKeepProgress` | game-manager.js:99-130 | a run of calls other than progress reports leaves the player's stored progress alone |
| `PlayerFlow.ReportThenAnnounce` | game-manager.js:89-130 | a progress report followed only by other calls leaves the reported count and score in the player's node |
| `PlayerFlow.ProgressIsMirrored` | script.js:510-513 | after a correct answer the stored completed count and score equal the page's answered count and score |
| `PlayerFlow.JoinGame` | script.js:387-425 | the player gets in exactly when the checks pass on the players stored under the trimmed code and that code names a room; then the session holds the code and new id, and the stored name is the trimmed name; otherwise nothing changes |
| `PlayerFlow.TakenNameKeepsOut` | script.js:408-412 | a player stored in the room under any id whose name equals the trimmed name up to ASCII case keeps the newcomer out, and nothing changes |
| `PlayerFlow.Enter` | script.js:414-425 | past the checks, the player gets in exactly when the room exists, seated under the new id with the given name; otherwise nothing changes |
| `PlayerFlow.EnterWithoutGroupData` | script.js:416-425 | without group data the initial read changes neither the page nor the store |
| `PlayerFlow.JoinGameIsJoinRoom` | script.js:414-425 | in any store the game manager can produce, `joinGame` amounts to `joinRoom` with the trimmed code and name |
| `PlayerFlow.GroupChoiceIsDropped` | script.js:414 | in any store the game manager can produce, the chosen group makes no difference to the outcome of `joinGame` |
| `PlayerFlow.StoredPlayersAreUnassigned` | script.js:259-267 | the group views find no group on a stored player, so stored players form a single `'Unassigned'` bucket holding every player and all their points |
| `PlayerFlow.PodiumShowsOnlyUnassigned` | script.js:270-287 | so the podium shows only the gold pedestal, for `'Unassigned'`, with silver and bronze empty |

## Left out

- Rendering and page routing are not modelled: DOM updates, splash alerts,
  QR codes, the progress dots, the star field and its animation. They hold no
  game rules.
- The podium and leader texts (the group name in Hebrew, the crown) are not
  modelled. The model stops at which group sits in which slot.
- Timers (`setInterval`, `setTimeout`) and confetti are left out. Each
  stopwatch tick is one call of the stopwatch functions.
- The Firebase listeners are not modelled: `listenToPlayers`,
  `listenToGameState`, `listenToStream` and `stopListening`. They are
  realtime transport.
  - The reads with `once` become plain lookups in the store.
  - The `gameState` a listener caches is an explicit field of the session.
- The failure of `listenToGroupProgress` at script.js:443 is not modelled as
  a step of `joinGame`. That method does not exist, so the call throws after
  the join and the initial read. It also prevents `listenToStream` from being
  installed. `PlayerProgress.AdoptSnapshot` models the callback that would
  have been registered.
- Room codes are opaque map keys. Firebase path parsing is not modelled: a
  code containing `/` would address a deeper node.
- The random draws are inputs:
  - `Rooms.RoomCode` takes the integer draw `floor(random * 9000)`. The
    floating-point product is not modelled.
  - `Rooms.JoinRoom` takes the base-36 suffix of the player id as any
    string. Its nine-character shape is not modelled, and neither are id
    collisions between players.
- The order in which `Object.values` yields the players to the leaderboard
  and the group views is an input sequence. The player ids are not
  integer-like, so that order is insertion order, which the store does not
  record. The name check only asks whether some stored player clashes, so it
  reads the players as a map and needs no order.
- `JsBuiltins.Lower`: `toLowerCase` is modelled for ASCII A-Z only. The
  answers and names of the game are digits, Hebrew and ASCII, and Hebrew has
  no case, but a name in another cased script would compare differently.
- The filter of English letters from the answer box at script.js:382 is not
  modelled. It is input policy applied while typing, before `handleCheck`.
- The progress percentage at script.js:190 is not modelled. It is a float
  division, and its `totalPuzzles = 7` (script.js:120) does not match the 18
  questions.
- The `typeof gameManager === 'undefined'` guards at script.js:218, 405 and
  559 are not modelled. `gameManager` is always defined at game-manager.js:147.
- `finishGame` at script.js:240-251 only runs the host's timers and podium.
  It never calls `endGame`, and it is not modelled beyond
  `Leaderboard.GroupPodium`.
- `PlayerFlow.Perform` gives every call it replays the same clock reading.
  The real calls are asynchronous and read the clock one after the other.
- Concurrent writes from several clients are not modelled. Each operation is
  applied atomically in sequence.
- `Stopwatch.HostDisplayRoundTrip`: the exact-format round trip is stated
  only below 100 minutes. From 100 minutes on, the minutes field grows past
  two digits.
- `Stopwatch.PlayerDisplayRoundTrip`: the same 100-minute bound applies.
- `HostClock.IntendedHostShowsElapsed`: the same 100-minute bound applies,
  and the start stamp is taken to be positive, as `Date.now()` is.
- The player's stopwatch is modelled by its arithmetic and display only. The
  player's cached room state comes from `listenToGameState`, which is not
  modelled, so its start time is not tied to a session.
- `Leaderboard.LeaderIffScored`: assumes no player score is negative. The
  game never stores a negative score.

## Findings

| source | as written | input that shows it | evidently intended | confidence | as-written member | corrected member |
|---|---|---|---|---|---|---|
| script.js:219 | `updateHostStopwatch` takes its start from `gameManager.gameState?.startTime`. On the host page nothing fills `gameState`: only `listenToGameState` does, and only the player page registers it. So each tick starts from its own `Date.now()`, and the elapsed time is the few milliseconds between the tick's two clock readings. | any run of host operations from a fresh client, including `startGame`; a tick whose two readings are under 100 ms apart | the host's stopwatch counts from the room's `startTime`, written by `startGame` | not executed | `HostClock.HostStopwatchStuck` | `HostClock.IntendedHostShowsElapsed` |
| script.js:515 | `handleCheck` calls `gameManager.updateGroupProgress`, which `GameManager` does not define. For a player with a group, the call throws a TypeError, so the finish block at script.js:521-525 is never reached. Every joined player has a group (script.js:401-403). So no player is ever marked finished or announced by `handleCheck`. | 17 questions answered (0..16, score 1700), the input "23", any group | the group report is made, and a player who completes the table is marked finished and announced exactly once | not executed | `PlayerProgress.LastAnswerOfGroupedPlayer` | `PlayerProgress.LastAnswerOfGroupedPlayerIntended` |

The as-written half is also stated for every run by
`PlayerProgress.GroupedPlayerNeverFinishes`, over `PlayerProgress.HandleCheck`.
The corrected half is `PlayerProgress.HandleCheckIntended`, and
`PlayerProgress.IntendedFinishesExactlyOnce` proves it finishes a player
exactly once.

For the host stopwatch, the as-written tick is `HostClock.HostTick` and the
corrected one is `HostClock.HostTickIntended`, which reads the start time of
the room the session points at.

=== FILE: answers.dfy ===
/** Answer checking on the player page: `normalize` and the search of the
    18-entry question table that `handleCheck` runs (script.js). */
module Answers {
  import opened JsBuiltins

  // ---------------------------------------------------------------------------
  // normalize

  /** The characters the `normalize` regex deletes: U+200B..U+200F and U+FEFF. */
  predicate IsZeroWidth(c: char)
  {
    ('\U{200B}' <= c <= '\U{200F}') || c == '\U{FEFF}'
  }

  function RemoveZeroWidth(s: string): (r: string)
    ensures |r| <= |s|
    ensures forall c :: c in r ==> c in s && !IsZeroWidth(c)
    ensures (forall i :: 0 <= i < |s| ==> !IsZeroWidth(s[i])) ==> r == s
  {
    if s == [] then []
    else (if IsZeroWidth(s[0]) then [] else [s[0]]) + RemoveZeroWidth(s[1..])
  }

  /** `normalize(str)`: a falsy input gives `""`; otherwise trim, lower-case,
      then delete zero-width characters, in that order. */
  function Normalize(s: string): (r: string)
    ensures s == "" ==> r == ""
    ensures |r| <= |s|
    ensures forall c :: c in r ==> !IsUpperAscii(c) && !IsZeroWidth(c)
  {
    if s == "" then "" else RemoveZeroWidth(Lower(Trim(s)))
  }

  /** A string already in normal form: not padded by whitespace, no ASCII
      capital, no zero-width character. */
  predicate Canonical(s: string)
  {
    && (s == [] || (!IsWhitespace(s[0]) && !IsWhitespace(s[|s| - 1])))
    && (forall i :: 0 <= i < |s| ==> !IsUpperAscii(s[i]) && !IsZeroWidth(s[i]))
  }

  /** Normal forms are fixed points of `normalize`. */
  lemma NormalizeCanonical(s: string)
    requires Canonical(s)
    ensures Normalize(s) == s
  {
    if s != "" {
      TrimOfTrimmed(s);
      LowerOfCanonical(s);
      assert RemoveZeroWidth(s) == s;
    }
  }

  lemma LowerOfCanonical(s: string)
    requires forall i :: 0 <= i < |s| ==> !IsUpperAscii(s[i])
    ensures Lower(s) == s
  {
    assert forall i :: 0 <= i < |s| ==> Lower(s)[i] == s[i];
  }

  /** Without zero-width characters in the input, `normalize` is idempotent:
      its result is already in normal form. */
  lemma NormalizeIdempotentWithoutZeroWidth(s: string)
    requires forall i :: 0 <= i < |s| ==> !IsZeroWidth(s[i])
    ensures Canonical(Normalize(s))
    ensures Normalize(Normalize(s)) == Normalize(s)
  {
    if s != "" {
      TrimKeepsNoZeroWidth(s);
      LowerOfTrimmedCanonical(Trim(s));
      var l := Lower(Trim(s));
      assert RemoveZeroWidth(l) == l;
      NormalizeCanonical(l);
    }
  }

  lemma TrimKeepsNoZeroWidth(s: string)
    requires forall i :: 0 <= i < |s| ==> !IsZeroWidth(s[i])
    ensures forall i :: 0 <= i < |Trim(s)| ==> !IsZeroWidth(Trim(s)[i])
  {
    var t := Trim(s);
    TrimCuts(s);
    assert forall i :: 0 <= i < |t| ==> t[i] == s[TrimCut(s) + i];
  }

  /** Lower-casing a trimmed string without zero-width characters gives a
      normal form. */
  lemma LowerOfTrimmedCanonical(t: string)
    requires t == [] || (!IsWhitespace(t[0]) && !IsWhitespace(t[|t| - 1]))
    requires forall i :: 0 <= i < |t| ==> !IsZeroWidth(t[i])
    ensures Canonical(Lower(t))
  {
    var l := Lower(t);
    forall i | 0 <= i < |l|
      ensures !IsUpperAscii(l[i]) && !IsZeroWidth(l[i])
    {
      LowerKeepsZeroWidth(t[i]);
    }
    if t != [] {
      assert l[0] == LowerChar(t[0]) && l[|l| - 1] == LowerChar(t[|t| - 1]);
    }
  }

  lemma LowerKeepsZeroWidth(c: char)
    ensures IsZeroWidth(LowerChar(c)) <==> IsZeroWidth(c)
  {
  }

  /** In general `normalize` is not idempotent: trimming happens before the
      zero-width characters are deleted, so a zero-width character can shield
      whitespace from `trim`. */
  lemma NormalizeNotIdempotent()
    ensures Normalize("\U{200B} a") == " a"
    ensures Normalize(Normalize("\U{200B} a")) == "a"
  {
    var s := "\U{200B} a";
    assert TrimStart(s) == s;
    assert TrimEnd(s) == s;
    assert Lower(s) == s;
    assert RemoveZeroWidth(s) == " a" by {
      assert s[1..] == " a";
      assert RemoveZeroWidth(" a") == " a" by {
        assert " a"[1..] == "a";
      }
    }
    var t := " a";
    assert TrimStart(t) == "a" by {
      assert t[1..] == "a";
    }
    assert TrimEnd("a") == "a";
    assert Lower("a") == "a";
    assert RemoveZeroWidth("a") == "a";
  }

  /** What `normalize` is for: the whitespace around a typed answer is
      dropped and every character of the answer is kept, lower-cased. */
  lemma NormalizePadded(p: string, t: string, q: string)
    requires AllWhitespace(p) && AllWhitespace(q)
    requires t == [] || (!IsWhitespace(t[0]) && !IsWhitespace(t[|t| - 1]))
    requires forall i :: 0 <= i < |t| ==> !IsZeroWidth(t[i])
    ensures Normalize(p + t + q) == Lower(t)
  {
    TrimPadded(p, t, q);
    var l := Lower(t);
    forall i | 0 <= i < |l|
      ensures !IsZeroWidth(l[i])
    {
      LowerKeepsZeroWidth(t[i]);
    }
    assert RemoveZeroWidth(l) == l;
  }

  // ---------------------------------------------------------------------------
  // The question table and the search of handleCheck

  /** A question table: for each question, its accepted answers, a single
      `ans` string being a one-element list. */
  type Table = seq<seq<string>>

  /** `allQuestions`. */
  const Questions: Table := [
    ["30"], ["moon", "לירח"], ["12"], ["12"], ["24"], ["20"], ["80"], ["8"], ["41"],
    ["72"], ["9"], ["10"], ["53"], ["חלל"], ["48"], ["56"], ["47"], ["23"]
  ]

  const QuestionCount: nat := 18

  lemma QuestionsSize()
    ensures |Questions| == QuestionCount
  {
  }

  /** `validAnswers.some(a => normalize(val) === normalize(a))` for question
      `i`: some accepted answer has the normal form of `val`. */
  predicate Accepts(table: Table, i: nat, val: string)
    requires i < |table|
  {
    AnyAccepted(table[i], Normalize(val))
  }

  /** The loop of `handleCheck`, from index `from` on: the first index below
      `n` that is not yet answered and passes `ok`, or -1 when there is none. */
  function FirstOpen(n: nat, ok: nat -> bool, answered: set<int>, from: nat): (r: int)
    requires from <= n
    ensures r == -1 || (from <= r < n && r !in answered && ok(r))
    ensures forall j: nat :: from <= j < (if r == -1 then n else r) && j !in answered ==> !ok(j)
    decreases n - from
  {
    if from == n then -1
    else if from !in answered && ok(from) then from
    else FirstOpen(n, ok, answered, from + 1)
  }

  /** `validAnswers.some(...)`, written as the search it is. */
  predicate AnyAccepted(answers: seq<string>, normalizedVal: string)
  {
    if answers == [] then false
    else normalizedVal == Normalize(answers[0]) || AnyAccepted(answers[1..], normalizedVal)
  }

  /** The search finds an answer exactly when some listed answer has the
      given normal form. */
  lemma {:induction false} AnyAcceptedIff(answers: seq<string>, normalizedVal: string)
    ensures AnyAccepted(answers, normalizedVal) <==>
      exists a :: a in answers && normalizedVal == Normalize(a)
  {
    if answers != [] {
      AnyAcceptedIff(answers[1..], normalizedVal);
      assert forall a :: a in answers <==> a == answers[0] || a in answers[1..];
    }
  }

  /** `handleCheck`'s search over the whole table: the smallest unanswered
      index whose question accepts `val`, or -1 exactly when there is none. */
  function Match(table: Table, val: string, answered: set<int>): (r: int)
    ensures -1 <= r < |table|
    ensures r >= 0 <==> exists j {:trigger Accepts(table, j, val)} ::
      0 <= j < |table| && j !in answered && Accepts(table, j, val)
    ensures r >= 0 ==> r !in answered && Accepts(table, r, val)
    ensures r >= 0 ==> forall j {:trigger Accepts(table, j, val)} ::
      0 <= j < r && j !in answered ==> !Accepts(table, j, val)
  {
    FirstOpen(|table|, (j: nat) => j < |table| && Accepts(table, j, val), answered, 0)
  }

  // ---------------------------------------------------------------------------
  // Facts about the game's own table

  /** Every accepted answer in the game's table is already in normal form, so
      question `i` accepts `val` exactly when `normalize(val)` is listed for it. */
  lemma TableIsNormalized(i: nat, val: string)
    requires i < |Questions|
    ensures |Questions| == QuestionCount
    ensures Accepts(Questions, i, val) <==> Normalize(val) in Questions[i]
  {
    AnswersCanonical(i);
    AnyAcceptedIff(Questions[i], Normalize(val));
    forall a | a in Questions[i]
      ensures Normalize(a) == a
    {
      NormalizeCanonical(a);
    }
  }

  lemma AnswersCanonical(i: nat)
    requires i < |Questions|
    ensures forall a :: a in Questions[i] ==> Canonical(a)
  {
    if i == 1 || i == 13 {
      WordAnswersCanonical(i);
    } else {
      if i < 9 { LowDigitAnswers(i); } else { HighDigitAnswers(i); }
      var a := Questions[i][0];
      assert Questions[i] == [a];
      DigitsCanonical(a);
    }
  }

  /** The two questions answered by words list them in normal form. */
  lemma WordAnswersCanonical(i: nat)
    requires i == 1 || i == 13
    ensures forall a :: a in Questions[i] ==> Canonical(a)
  {
    if i == 1 {
      assert Questions[1] == ["moon", "לירח"];
      assert Canonical("moon") && Canonical("לירח");
    } else {
      assert Questions[13] == ["חלל"];
      assert Canonical("חלל");
    }
  }

  /** A capitalised, padded answer is accepted: " Moon " and "MOON" both
      answer question 1. */
  lemma PaddedMoonAccepted()
    ensures Accepts(Questions, 1, " Moon ")
    ensures Accepts(Questions, 1, "MOON")
  {
    PaddedMoonNormalForm();
    CapitalMoonNormalForm();
    AcceptsMoon(" Moon ");
    AcceptsMoon("MOON");
  }

  lemma PaddedMoonNormalForm()
    ensures Normalize(" Moon ") == "moon"
  {
    MoonLowered();
    PaddedNormalForm(" ", "Moon", " ", " Moon ");
  }

  lemma CapitalMoonNormalForm()
    ensures Normalize("MOON") == "moon"
  {
    MoonLowered();
    PaddedNormalForm("", "MOON", "", "MOON");
  }

  lemma PaddedNormalForm(p: string, t: string, q: string, s: string)
    requires s == p + t + q && AllWhitespace(p) && AllWhitespace(q)
    requires t == [] || (!IsWhitespace(t[0]) && !IsWhitespace(t[|t| - 1]))
    requires forall i :: 0 <= i < |t| ==> !IsZeroWidth(t[i])
    ensures Normalize(s) == Lower(t)
  {
    NormalizePadded(p, t, q);
  }

  lemma MoonLowered()
    ensures Lower("Moon") == "moon" && Lower("MOON") == "moon"
  {
    var a, b := Lower("Moon"), Lower("MOON");
    assert a[0] == LowerChar('M') && a[1] == 'o' && a[2] == 'o' && a[3] == 'n';
    assert b[0] == 'm' && b[1] == 'o' && b[2] == 'o' && b[3] == 'n';
  }

  lemma AcceptsMoon(val: string)
    requires Normalize(val) == "moon"
    ensures 1 < |Questions| && Accepts(Questions, 1, val)
  {
    QuestionsSize();
    assert "moon" in Questions[1] by {
      assert Questions[1] == ["moon", "לירח"];
    }
    TableIsNormalized(1, val);
  }

  /** Questions 0 to 8, other than 1, accept one number. */
  lemma LowDigitAnswers(i: nat)
    requires i < 9 && i != 1
    ensures |Questions[i]| == 1 && Questions[i][0] != [] && AllDigits(Questions[i][0])
  {
  }

  /** Questions 9 to 17, other than 13, accept one number. */
  lemma HighDigitAnswers(i: nat)
    requires 9 <= i < |Questions| && i != 13
    ensures |Questions[i]| == 1 && Questions[i][0] != [] && AllDigits(Questions[i][0])
  {
  }

  lemma DigitsCanonical(s: string)
    requires s != [] && AllDigits(s)
    ensures Canonical(s)
  {
  }

  lemma DigitsAreNormal(s: string)
    requires s != [] && AllDigits(s)
    ensures Normalize(s) == s
  {
    DigitsCanonical(s);
    NormalizeCanonical(s);
  }

  /** Questions 2 and 3, and no others, accept "12". */
  lemma TwelveListedAt(j: nat)
    requires j < |Questions|
    ensures Accepts(Questions, j, "12") <==> j == 2 || j == 3
  {
    DigitsAreNormal("12");
    TableIsNormalized(j, "12");
    TwelveListed(j);
  }

  /** Questions 2 and 3, and no others, list "12". */
  lemma TwelveListed(j: nat)
    requires j < |Questions|
    ensures "12" in Questions[j] <==> j == 2 || j == 3
  {
    if j == 2 || j == 3 {
      assert Questions[j] == ["12"];
    }
  }

  /** The answer "12" goes to question 2 while it is open, then to question 3
      while that is open, and matches nothing after that. */
  lemma TwelveMatches(answered: set<int>)
    ensures Match(Questions, "12", answered) ==
      if 2 !in answered then 2 else if 3 !in answered then 3 else -1
  {
    TwelveListedAt(2);
    TwelveListedAt(3);
    var r := Match(Questions, "12", answered);
    TwelveListedAt(if r < 0 then 0 else r);
  }

  /** So "12" first matches 2, then 3 once 2 is answered, then nothing. */
  lemma DuplicateAnswersConsumedInOrder()
    ensures Match(Questions, "12", {}) == 2
    ensures Match(Questions, "12", {2}) == 3
    ensures Match(Questions, "12", {2, 3}) == -1
  {
    TwelveMatches({});
    TwelveMatches({2});
    TwelveMatches({2, 3});
  }
}

=== FILE: host_clock.dfy ===
/** The host's stopwatch tick against the session it runs in. The host page
    creates and starts the room but never subscribes to the room's state, so
    the session's cached copy of the room stays empty and each tick falls back
    to its own first clock reading as the start. */
module HostClock {
  import opened JsBuiltins
  import Stopwatch
  import Rooms

  /** `gameManager.gameState?.startTime`. */
  function CachedStart(s: Rooms.Session): Option<int>
  {
    if s.gameState.Some? then s.gameState.value.startTime else None
  }

  /** One tick of `updateHostStopwatch` as written: the start stamp comes
      from the session's cached room state; `first` and `now` are the tick's
      two clock readings. */
  function HostTick(st: Rooms.State, first: int, now: int): (r: Stopwatch.Reading)
    ensures st.session.gameState.None? ==> r == Stopwatch.Decompose(now - first)
    ensures CachedStart(st.session).Some? && CachedStart(st.session).value != 0 ==>
      r == Stopwatch.Decompose(now - CachedStart(st.session).value)
  {
    Stopwatch.Decompose(Stopwatch.Elapsed(CachedStart(st.session), first, now))
  }

  /** No operation of the game manager fills the session's cached room state. */
  lemma ApplyKeepsCache(st: Rooms.State, op: Rooms.Op)
    ensures Rooms.Apply(st, op).session.gameState == st.session.gameState
  {
  }

  /** Whatever the host does from a fresh client, the cache stays empty. */
  lemma {:induction false} NothingCachesGameState(st: Rooms.State, ops: seq<Rooms.Op>)
    requires st.session.gameState.None?
    ensures Rooms.RunOps(st, ops).session.gameState.None?
    decreases |ops|
  {
    if ops != [] {
      ApplyKeepsCache(st, ops[0]);
      NothingCachesGameState(Rooms.Apply(st, ops[0]), ops[1..]);
    }
  }

  /** Less than 100 ms between the two readings is a zero reading. */
  lemma ShortSpanShowsZero(d: int)
    requires 0 <= d < Stopwatch.MsPerTenth
    ensures Stopwatch.HostDisplay(Stopwatch.Decompose(d)) == "00:00.0"
  {
    assert Stopwatch.Decompose(d) == Stopwatch.Reading(0, 0, 0);
    assert IntString(0) == "0";
    assert Stopwatch.Pad2(0) == "00";
  }

  /** As written, the host's stopwatch never moves: after any run of
      operations from a fresh client and an empty database, a tick whose two
      clock readings lie less than 100 ms apart shows `00:00.0`, however long
      ago the game was started. */
  lemma HostStopwatchStuck(ops: seq<Rooms.Op>, first: int, now: int)
    requires first <= now < first + Stopwatch.MsPerTenth
    ensures Stopwatch.HostDisplay(HostTick(Rooms.RunOps(Rooms.State(map[], Rooms.NewSession), ops), first, now)) == "00:00.0"
  {
    var init := Rooms.State(map[], Rooms.NewSession);
    NothingCachesGameState(init, ops);
    UncachedTickShowsZero(Rooms.RunOps(init, ops), first, now);
  }

  /** Without a cached room, a tick shows only the span between its readings. */
  lemma UncachedTickShowsZero(st: Rooms.State, first: int, now: int)
    requires st.session.gameState.None?
    requires first <= now < first + Stopwatch.MsPerTenth
    ensures Stopwatch.HostDisplay(HostTick(st, first, now)) == "00:00.0"
  {
    ShortSpanShowsZero(now - first);
  }

  /** The tick as the game manager's `startGame` stamp shows it was meant to
      run: the start is read from the room the session points at. */
  function HostTickIntended(st: Rooms.State, first: int, now: int): (r: Stopwatch.Reading)
    ensures Truthy(st.session.roomCode) ==>
      var start := Rooms.RoomAt(st.rooms, st.session.roomCode.value).startTime;
      start.Some? && start.value != 0 ==> r == Stopwatch.Decompose(now - start.value)
  {
    var start := if Truthy(st.session.roomCode) then Rooms.RoomAt(st.rooms, st.session.roomCode.value).startTime else None;
    Stopwatch.Decompose(Stopwatch.Elapsed(start, first, now))
  }

  /** After the host starts the game at clock reading `t0`, the intended
      tick shows the time since `t0`: below 100 minutes its display reads
      back as minutes, seconds and tenths that account for the elapsed time
      to within a tenth of a second. */
  lemma IntendedHostShowsElapsed(st: Rooms.State, t0: int, first: int, now: int)
    requires Truthy(st.session.roomCode) && t0 > 0
    requires 0 <= now - t0 < 100 * Stopwatch.MsPerMinute
    ensures Stopwatch.ShowsElapsed(HostTickIntended(Rooms.StartGame(st, t0), first, now), now - t0)
  {
    var next := Rooms.StartGame(st, t0);
    assert Rooms.RoomAt(next.rooms, st.session.roomCode.value).startTime == Some(t0);
    TickReadsStart(next, t0, first, now);
    Stopwatch.HostShowsElapsed(now - t0);
  }

  /** In a room started at `t0`, the intended tick decomposes the time since `t0`. */
  lemma TickReadsStart(st: Rooms.State, t0: int, first: int, now: int)
    requires Truthy(st.session.roomCode) && t0 > 0
    requires Rooms.RoomAt(st.rooms, st.session.roomCode.value).startTime == Some(t0)
    ensures HostTickIntended(st, first, now) == Stopwatch.Decompose(now - t0)
  {
  }
}

=== FILE: js_builtins.dfy ===
/** The small part of the JavaScript runtime that the game's rules lean on:
    `undefined`-able values, `String.prototype.trim`, `toLowerCase` on the
    characters the game can meet, `Number.prototype.toString` on integers,
    `padStart`, and the truncating remainder operator `%`. */
module JsBuiltins {

  /** A value that may be `undefined`/`null` in the source. */
  datatype Option<+T> = None | Some(value: T)

  /** A call that either returns a value or throws an `Error` with a message. */
  datatype Result<+T> = Ok(value: T) | Err(message: string)

  /** The scalar values the game stores in its JSON documents. */
  datatype JsValue = JStr(s: string) | JNum(n: int) | JBool(b: bool)

  /** JavaScript truthiness of an optional string: `undefined`, `null` and `""` are falsy. */
  predicate Truthy(s: Option<string>)
  {
    s.Some? && s.value != ""
  }

  // ---------------------------------------------------------------------------
  // trim

  /** ECMAScript WhiteSpace and LineTerminator code points: exactly what `trim` removes. */
  predicate IsWhitespace(c: char)
  {
    || c == '\U{9}' || c == '\U{A}' || c == '\U{B}' || c == '\U{C}' || c == '\U{D}'
    || c == ' ' || c == '\U{A0}' || c == '\U{1680}'
    || ('\U{2000}' <= c <= '\U{200A}')
    || c == '\U{2028}' || c == '\U{2029}' || c == '\U{202F}' || c == '\U{205F}'
    || c == '\U{3000}' || c == '\U{FEFF}'
  }

  function TrimStart(s: string): (r: string)
    ensures |r| <= |s|
    ensures r == [] || !IsWhitespace(r[0])
  {
    if s != [] && IsWhitespace(s[0]) then TrimStart(s[1..]) else s
  }

  /** `TrimStart` cuts a whitespace prefix and keeps the rest. */
  lemma {:induction false} TrimStartCuts(s: string)
    ensures TrimStart(s) == s[|s| - |TrimStart(s)|..]
    ensures forall i :: 0 <= i < |s| - |TrimStart(s)| ==> IsWhitespace(s[i])
  {
    if s != [] && IsWhitespace(s[0]) {
      TrimStartCuts(s[1..]);
    }
  }

  function TrimEnd(s: string): (r: string)
    ensures |r| <= |s|
    ensures r == [] || !IsWhitespace(r[|r| - 1])
  {
    if s != [] && IsWhitespace(s[|s| - 1]) then TrimEnd(s[..|s| - 1]) else s
  }

  /** `TrimEnd` cuts a whitespace suffix and keeps the rest. */
  lemma {:induction false} TrimEndCuts(s: string)
    ensures TrimEnd(s) == s[..|TrimEnd(s)|]
    ensures forall i :: |TrimEnd(s)| <= i < |s| ==> IsWhitespace(s[i])
  {
    if s != [] && IsWhitespace(s[|s| - 1]) {
      TrimEndCuts(s[..|s| - 1]);
    }
  }

  /** `String.prototype.trim`: the result neither starts nor ends with
      whitespace; `TrimCuts` says it is a slice of `s` with only whitespace
      cut away. */
  function Trim(s: string): (r: string)
    ensures |r| <= |s|
    ensures r == [] || (!IsWhitespace(r[0]) && !IsWhitespace(r[|r| - 1]))
  {
    var t := TrimStart(s);
    TrimEndCuts(t);
    var r := TrimEnd(t);
    assert r != [] ==> r[0] == t[0];
    r
  }

  /** Number of characters `trim` removes from the front of `s`. */
  function TrimCut(s: string): nat
  {
    |s| - |TrimStart(s)|
  }

  /** `trim` keeps the slice of `s` after the first `TrimCut(s)` characters,
      and everything it cuts away is whitespace. */
  lemma TrimCuts(s: string)
    ensures TrimCut(s) + |Trim(s)| <= |s|
    ensures Trim(s) == s[TrimCut(s)..TrimCut(s) + |Trim(s)|]
    ensures forall i :: 0 <= i < TrimCut(s) ==> IsWhitespace(s[i])
    ensures forall i :: TrimCut(s) + |Trim(s)| <= i < |s| ==> IsWhitespace(s[i])
  {
    var t := TrimStart(s);
    TrimStartCuts(s);
    TrimEndCuts(t);
    var lo := |s| - |t|;
    var r := Trim(s);
    assert r == s[lo..lo + |r|];
    forall i | lo + |r| <= i < |s|
      ensures IsWhitespace(s[i])
    {
      assert s[i] == t[i - lo];
    }
  }

  /** A string with no whitespace at either end is left alone by `trim`. */
  lemma {:induction false} TrimOfTrimmed(s: string)
    requires s == [] || (!IsWhitespace(s[0]) && !IsWhitespace(s[|s| - 1]))
    ensures Trim(s) == s
  {
    assert TrimStart(s) == s;
    assert TrimEnd(s) == s;
  }

  predicate AllWhitespace(s: string)
  {
    forall i :: 0 <= i < |s| ==> IsWhitespace(s[i])
  }

  /** `trim` removes exactly the whitespace padding around a string that
      neither starts nor ends with whitespace. */
  lemma {:induction false} TrimPadded(p: string, t: string, q: string)
    requires AllWhitespace(p) && AllWhitespace(q)
    requires t == [] || (!IsWhitespace(t[0]) && !IsWhitespace(t[|t| - 1]))
    ensures Trim(p + t + q) == t
  {
    if t == [] {
      assert p + t + q == p + q;
      assert AllWhitespace(p + q);
      AllWhitespaceTrims(p + q);
    } else {
      TrimStartPadded(p, t + q);
      assert p + t + q == p + (t + q);
      TrimEndPadded(t, q);
    }
  }

  lemma {:induction false} AllWhitespaceTrims(s: string)
    requires AllWhitespace(s)
    ensures TrimStart(s) == []
    ensures Trim(s) == []
  {
    if s != [] {
      AllWhitespaceTrims(s[1..]);
    }
  }

  lemma {:induction false} TrimStartPadded(p: string, u: string)
    requires AllWhitespace(p)
    requires u != [] && !IsWhitespace(u[0])
    ensures TrimStart(p + u) == u
  {
    if p != [] {
      assert (p + u)[1..] == p[1..] + u;
      TrimStartPadded(p[1..], u);
    } else {
      assert p + u == u;
    }
  }

  lemma {:induction false} TrimEndPadded(t: string, q: string)
    requires AllWhitespace(q)
    requires t != [] && !IsWhitespace(t[|t| - 1])
    ensures TrimEnd(t + q) == t
  {
    if q != [] {
      assert (t + q)[..|t + q| - 1] == t + q[..|q| - 1];
      TrimEndPadded(t, q[..|q| - 1]);
    } else {
      assert t + q == t;
    }
  }

  // ---------------------------------------------------------------------------
  // toLowerCase

  predicate IsUpperAscii(c: char)
  {
    'A' <= c <= 'Z'
  }

  /** `toLowerCase` restricted to ASCII: A-Z map to a-z and every other
      character (digits, Hebrew, punctuation) is returned unchanged. */
  function LowerChar(c: char): (r: char)
    ensures !IsUpperAscii(r)
    ensures IsWhitespace(r) <==> IsWhitespace(c)
    ensures !IsUpperAscii(c) ==> r == c
    ensures IsUpperAscii(c) ==> r as int == c as int + 32
  {
    if IsUpperAscii(c) then (c as int + 32) as char else c
  }

  function Lower(s: string): (r: string)
    ensures |r| == |s|
    ensures forall i :: 0 <= i < |s| ==> r[i] == LowerChar(s[i])
  {
    if s == [] then [] else [LowerChar(s[0])] + Lower(s[1..])
  }

  /** Lower-casing is idempotent. */
  lemma LowerIdempotent(s: string)
    ensures Lower(Lower(s)) == Lower(s)
  {
  }

  /** A string without A-Z is its own lower case. */
  lemma LowerOfLower(s: string)
    requires forall i :: 0 <= i < |s| ==> !IsUpperAscii(s[i])
    ensures Lower(s) == s
  {
  }

  /** `s.includes(t)`: `t` occurs in `s` as a contiguous piece. */
  predicate Includes(s: string, t: string)
  {
    exists i :: 0 <= i <= |s| - |t| && s[i..][..|t|] == t
  }

  /** Whatever contains a string contains each of its prefixes. */
  lemma IncludesPrefix(s: string, t: string, k: nat)
    requires Includes(s, t) && k <= |t|
    ensures Includes(s, t[..k])
  {
    var i :| 0 <= i <= |s| - |t| && s[i..][..|t|] == t;
    assert s[i..][..k] == t[..k];
  }

  // ---------------------------------------------------------------------------
  // Number.prototype.toString on integers, and its inverse on digit strings

  predicate IsDigit(c: char)
  {
    '0' <= c <= '9'
  }

  predicate AllDigits(s: string)
  {
    forall i :: 0 <= i < |s| ==> IsDigit(s[i])
  }

  function DigitChar(d: nat): (c: char)
    requires d < 10
    ensures IsDigit(c)
  {
    ('0' as int + d) as char
  }

  function DigitValue(c: char): (d: nat)
    requires IsDigit(c)
    ensures d < 10
  {
    c as int - '0' as int
  }

  /** Decimal digits of a natural number, most significant first, no leading zero. */
  function NatString(n: nat): (r: string)
    ensures |r| >= 1 && AllDigits(r)
    ensures |r| > 1 ==> r[0] != '0'
    decreases n
  {
    if n < 10 then [DigitChar(n)] else NatString(n / 10) + [DigitChar(n % 10)]
  }

  /** Value of a string of decimal digits (leading zeros allowed). */
  function ParseDigits(s: string): (n: nat)
    requires AllDigits(s)
  {
    if s == [] then 0 else ParseDigits(s[..|s| - 1]) * 10 + DigitValue(s[|s| - 1])
  }

  /** `toString` on an integer-valued Number. */
  function IntString(n: int): (r: string)
    ensures |r| >= 1
    ensures n >= 0 ==> AllDigits(r)
    ensures n < 0 ==> r[0] == '-'
  {
    if n >= 0 then NatString(n) else "-" + NatString(-n)
  }

  /** Parsing the digits of a natural number gives the number back. */
  lemma {:induction false} ParseNatString(n: nat)
    ensures ParseDigits(NatString(n)) == n
    decreases n
  {
    if n >= 10 {
      var s := NatString(n);
      assert s[..|s| - 1] == NatString(n / 10);
      ParseNatString(n / 10);
    }
  }

  /** The number of digits of `n` is determined by its magnitude. */
  lemma {:induction false} NatStringLength(n: nat, k: nat)
    requires k >= 1
    requires Pow10(k - 1) <= n < Pow10(k) || (k == 1 && n < 10)
    ensures |NatString(n)| == k
    decreases k
  {
    if k > 1 {
      assert n >= 10 by { Pow10Grows(k - 1); }
      NatStringLength(n / 10, k - 1);
    } else if n >= 10 {
      assert false;
    }
  }

  function Pow10(k: nat): (p: nat)
    ensures p >= 1
  {
    if k == 0 then 1 else 10 * Pow10(k - 1)
  }

  lemma {:induction false} Pow10Grows(k: nat)
    requires k >= 1
    ensures Pow10(k) >= 10
  {
    if k > 1 {
      Pow10Grows(k - 1);
    }
  }

  /** Leading zeros do not change the value of a digit string. */
  lemma {:induction false} ParseLeadingZeros(z: nat, s: string)
    requires AllDigits(s)
    ensures AllDigits(Zeros(z) + s)
    ensures ParseDigits(Zeros(z) + s) == ParseDigits(s)
    decreases |s|
  {
    var t := Zeros(z) + s;
    assert AllDigits(t);
    if s == [] {
      assert t == Zeros(z);
      ParseZeros(z);
    } else {
      assert t[..|t| - 1] == Zeros(z) + s[..|s| - 1];
      ParseLeadingZeros(z, s[..|s| - 1]);
    }
  }

  function Zeros(z: nat): (r: string)
    ensures |r| == z && AllDigits(r)
    ensures forall i :: 0 <= i < z ==> r[i] == '0'
  {
    if z == 0 then [] else Zeros(z - 1) + ['0']
  }

  lemma {:induction false} ParseZeros(z: nat)
    ensures ParseDigits(Zeros(z)) == 0
  {
    if z > 0 {
      assert Zeros(z)[..z - 1] == Zeros(z - 1);
      ParseZeros(z - 1);
    }
  }

  // ---------------------------------------------------------------------------
  // padStart and %

  /** `s.padStart(width, '0')`. */
  function PadStartZero(s: string, width: nat): (r: string)
    ensures |r| == if |s| >= width then |s| else width
    ensures r == Zeros(|r| - |s|) + s
  {
    if |s| >= width then s else Zeros(width - |s|) + s
  }

  /** JavaScript `a % b` for a positive divisor: the remainder takes the sign
      of the dividend (truncating division), unlike Dafny's Euclidean `%`. */
  function JsRem(a: int, b: int): (r: int)
    requires b > 0
    ensures a >= 0 ==> 0 <= r < b
    ensures a < 0 ==> -b < r <= 0
    ensures a >= 0 ==> r == a % b
    ensures a < 0 ==> r == -((-a) % b)
  {
    if a >= 0 then a % b else -((-a) % b)
  }

  /** The quotient of truncating division, rounded toward zero. */
  function JsQuot(a: int, b: int): int
    requires b > 0
  {
    if a >= 0 then a / b else -((-a) / b)
  }

  /** `JsRem` is the remainder of division rounded toward zero: the
      dividend is the divisor times the truncated quotient plus it, and it
      is zero or carries the dividend's sign. */
  lemma JsRemIsTruncating(a: int, b: int)
    requires b > 0
    ensures a == b * JsQuot(a, b) + JsRem(a, b)
    ensures -b < JsRem(a, b) < b
    ensures JsRem(a, b) == 0 || (JsRem(a, b) < 0 <==> a < 0)
    ensures JsQuot(-a, b) == -JsQuot(a, b) && JsRem(-a, b) == -JsRem(a, b)
  {
  }
}

=== FILE: leaderboard.dfy ===
/** The score views of script.js: the host's player leaderboard, the group
    tally behind both podiums and the leader indicator, the podium slots, and
    the leader indicator itself.

    `Object.values` of the players map is an input sequence: the player keys
    are not integer-like, so its order is the order the map was filled in,
    which the model does not see. The group tally is built here, so its
    `Object.values` order is modelled: integer-like keys first in ascending
    numeric order, then the other keys in insertion order. */
module Leaderboard {
  import opened JsBuiltins
  import StableSort

  /** The fields of a player record these views read. */
  datatype Entry = Entry(name: Option<string>, group: Option<string>, score: Option<int>)

  /** One group's tally: `{ id, score, members }`. */
  datatype Bucket = Bucket(id: string, score: int, members: nat)

  /** What one player contributes to the tally: the bucket key and the points. */
  datatype Share = Share(id: string, points: int)

  const Unassigned: string := "Unassigned"

  /** `p.group || 'Unassigned'`. */
  function GroupId(p: Entry): (r: string)
    ensures r != ""
    ensures Truthy(p.group) ==> r == p.group.value
    ensures !Truthy(p.group) ==> r == Unassigned
  {
    if Truthy(p.group) then p.group.value else Unassigned
  }

  /** `p.score || 0`. */
  function ScoreOf(p: Entry): int
  {
    if p.score.Some? then p.score.value else 0
  }

  function BucketScore(b: Bucket): int
  {
    b.score
  }

  /** The players as the tally sees them, in `Object.values` order. */
  function Shares(ps: seq<Entry>): (r: seq<Share>)
    ensures |r| == |ps|
    ensures forall k :: 0 <= k < |ps| ==> r[k] == Share(GroupId(ps[k]), ScoreOf(ps[k]))
  {
    seq(|ps|, k requires 0 <= k < |ps| => Share(GroupId(ps[k]), ScoreOf(ps[k])))
  }

  // ---------------------------------------------------------------------------
  // Reference sums, one player at a time from the front of the list

  function Last<T>(s: seq<T>): T
    requires s != []
  {
    s[|s| - 1]
  }

  function Front<T>(s: seq<T>): seq<T>
    requires s != []
  {
    s[..|s| - 1]
  }

  /** Sum of the points of the players in group `id`. */
  function GroupTotal(cs: seq<Share>, id: string): int
  {
    if cs == [] then 0
    else GroupTotal(Front(cs), id) + (if Last(cs).id == id then Last(cs).points else 0)
  }

  /** Number of players in group `id`. */
  function GroupCount(cs: seq<Share>, id: string): nat
  {
    if cs == [] then 0
    else GroupCount(Front(cs), id) + (if Last(cs).id == id then 1 else 0)
  }

  function TotalPoints(cs: seq<Share>): int
  {
    if cs == [] then 0 else TotalPoints(Front(cs)) + Last(cs).points
  }

  function BucketTotal(bs: seq<Bucket>): int
  {
    if bs == [] then 0 else BucketTotal(Front(bs)) + Last(bs).score
  }

  // ---------------------------------------------------------------------------
  // The tally

  /** No two buckets share an id, as keys of one object. */
  predicate DistinctIds(bs: seq<Bucket>)
  {
    forall i, j :: 0 <= i < j < |bs| ==> bs[i].id != bs[j].id
  }

  /** Position of the bucket for `id`, or -1: `groupScores[gId]`. */
  function Find(bs: seq<Bucket>, id: string): (r: int)
    ensures -1 <= r < |bs|
    ensures r >= 0 ==> bs[r].id == id
    ensures r == -1 <==> forall i :: 0 <= i < |bs| ==> bs[i].id != id
  {
    if bs == [] then -1
    else if Last(bs).id == id then |bs| - 1
    else Find(Front(bs), id)
  }

  /** One step of the `forEach`: create the bucket on first sight, then add
      the points and count the member. */
  function AddTo(bs: seq<Bucket>, c: Share): seq<Bucket>
  {
    AddAt(bs, Find(bs, c.id), c)
  }

  /** `AddTo` once the bucket's index `i` is known, -1 meaning none. */
  function AddAt(bs: seq<Bucket>, i: int, c: Share): seq<Bucket>
    requires -1 <= i < |bs|
  {
    if i < 0 then bs + [Bucket(c.id, c.points, 1)]
    else bs[i := Bucket(c.id, bs[i].score + c.points, bs[i].members + 1)]
  }

  /** `r` is a tally of `cs`: distinct ids, each bucket holding its group's
      sum and count with at least one member, and a bucket for every player. */
  predicate TallyOf(cs: seq<Share>, r: seq<Bucket>)
  {
    DistinctIds(r) && Sums(cs, r) && Covers(cs, r)
  }

  /** Each bucket holds its group's sum and count, with at least one member. */
  predicate Sums(cs: seq<Share>, r: seq<Bucket>)
  {
    forall i :: 0 <= i < |r| ==>
      r[i].score == GroupTotal(cs, r[i].id) && r[i].members == GroupCount(cs, r[i].id) && r[i].members >= 1
  }

  /** Every player's group has a bucket. */
  predicate Covers(cs: seq<Share>, r: seq<Bucket>)
  {
    forall k :: 0 <= k < |cs| ==> Find(r, cs[k].id) >= 0
  }

  /** The buckets of `groupScores` in the order they were created. Each
      player's group has exactly one bucket, every bucket has at least one
      member, and each bucket holds its group's score sum and member count. */
  function Tally(cs: seq<Share>): (r: seq<Bucket>)
    ensures TallyOf(cs, r)
    ensures |r| <= |cs|
    decreases |cs|
  {
    if cs == [] then []
    else
      var bs := Tally(Front(cs));
      TallyStep(cs, bs);
      AddTo(bs, Last(cs))
  }

  function Ids(bs: seq<Bucket>): (r: seq<string>)
    ensures |r| == |bs|
    ensures forall i :: 0 <= i < |bs| ==> r[i] == bs[i].id
  {
    seq(|bs|, i requires 0 <= i < |bs| => bs[i].id)
  }

  /** The players' group ids, each kept at its first appearance only. */
  function FirstSeen(cs: seq<Share>): seq<string>
  {
    if cs == [] then []
    else
      var f := FirstSeen(Front(cs));
      if Last(cs).id in f then f else f + [Last(cs).id]
  }

  /** The buckets stand in the order their groups first appear among the
      players: the order in which the `forEach` created them. */
  lemma {:induction false} TallyOrder(cs: seq<Share>)
    ensures Ids(Tally(cs)) == FirstSeen(cs)
    decreases |cs|
  {
    if cs != [] {
      var bs := Tally(Front(cs));
      TallyOrder(Front(cs));
      assert Tally(cs) == AddAt(bs, Find(bs, Last(cs).id), Last(cs));
      AddAtIds(bs, Last(cs));
    }
  }

  /** Adding a player appends its id when it has no bucket yet, and keeps the
      ids otherwise. */
  lemma AddAtIds(bs: seq<Bucket>, c: Share)
    ensures var r := AddAt(bs, Find(bs, c.id), c);
      Ids(r) == if c.id in Ids(bs) then Ids(bs) else Ids(bs) + [c.id]
  {
    var f := Find(bs, c.id);
    if f < 0 {
      assert c.id !in Ids(bs);
      assert Ids(bs + [Bucket(c.id, c.points, 1)]) == Ids(bs) + [c.id];
    } else {
      assert Ids(bs)[f] == c.id;
      AddAtExisting(bs, f, c);
      assert Ids(AddAt(bs, f, c)) == Ids(bs);
    }
  }

  /** Adding the last player keeps the tally's contract. */
  lemma TallyStep(cs: seq<Share>, bs: seq<Bucket>)
    requires cs != [] && TallyOf(Front(cs), bs) && |bs| <= |Front(cs)|
    ensures TallyOf(cs, AddTo(bs, Last(cs))) && |AddTo(bs, Last(cs))| <= |cs|
  {
    if Find(bs, Last(cs).id) < 0 {
      TallyStepNew(cs, bs);
    } else {
      TallyStepOld(cs, bs);
    }
  }

  /** The last player opens a new bucket. */
  lemma TallyStepNew(cs: seq<Share>, bs: seq<Bucket>)
    requires cs != [] && TallyOf(Front(cs), bs)
    requires Find(bs, Last(cs).id) < 0
    ensures TallyOf(cs, AddTo(bs, Last(cs)))
  {
    var r := AddTo(bs, Last(cs));
    assert r == bs + [Bucket(Last(cs).id, Last(cs).points, 1)];
    NewBucketSums(cs, bs);
    NewBucketCovers(cs, bs);
    assert forall i :: 0 <= i < |bs| ==> r[i] == bs[i];
  }

  lemma NewBucketSums(cs: seq<Share>, bs: seq<Bucket>)
    requires cs != [] && TallyOf(Front(cs), bs)
    requires Find(bs, Last(cs).id) < 0
    ensures Sums(cs, bs + [Bucket(Last(cs).id, Last(cs).points, 1)])
  {
    var c, ps := Last(cs), Front(cs);
    var r := bs + [Bucket(c.id, c.points, 1)];
    assert GroupCount(ps, c.id) == 0 by {
      if GroupCount(ps, c.id) > 0 {
        var k := CountedMember(ps, c.id);
        assert false;
      }
    }
    ZeroCountZeroTotal(ps, c.id);
    forall i | 0 <= i < |r|
      ensures r[i].score == GroupTotal(cs, r[i].id) && r[i].members == GroupCount(cs, r[i].id) && r[i].members >= 1
    {
      if i < |bs| {
        assert r[i] == bs[i] && bs[i].id != c.id;
      }
    }
  }

  lemma NewBucketCovers(cs: seq<Share>, bs: seq<Bucket>)
    requires cs != [] && Covers(Front(cs), bs)
    ensures Covers(cs, bs + [Bucket(Last(cs).id, Last(cs).points, 1)])
  {
    var c, ps := Last(cs), Front(cs);
    var r := bs + [Bucket(c.id, c.points, 1)];
    forall k | 0 <= k < |cs|
      ensures Find(r, cs[k].id) >= 0
    {
      if k < |ps| {
        assert cs[k] == ps[k];
        var j := Find(bs, ps[k].id);
        assert r[j] == bs[j];
      } else {
        assert r[|bs|].id == cs[k].id;
      }
    }
  }

  /** The last player joins an existing bucket. */
  lemma TallyStepOld(cs: seq<Share>, bs: seq<Bucket>)
    requires cs != [] && TallyOf(Front(cs), bs)
    requires Find(bs, Last(cs).id) >= 0
    ensures TallyOf(cs, AddTo(bs, Last(cs)))
  {
    var c := Last(cs);
    var f := Find(bs, c.id);
    OldBucketTally(cs, bs, f);
  }

  lemma OldBucketTally(cs: seq<Share>, bs: seq<Bucket>, f: int)
    requires cs != [] && TallyOf(Front(cs), bs)
    requires f == Find(bs, Last(cs).id) && f >= 0
    ensures TallyOf(cs, AddAt(bs, f, Last(cs)))
  {
    var c := Last(cs);
    var b := Bucket(c.id, bs[f].score + c.points, bs[f].members + 1);
    OldBucketSums(cs, bs, f);
    SameIds(bs, f, b);
    SameIdsCover(Front(cs), bs, bs[f := b]);
    OldBucketCovers(cs, bs[f := b], f);
    AddAtExisting(bs, f, c);
  }

  lemma AddAtExisting(bs: seq<Bucket>, f: int, c: Share)
    requires 0 <= f < |bs|
    ensures AddAt(bs, f, c) == bs[f := Bucket(c.id, bs[f].score + c.points, bs[f].members + 1)]
  {
  }

  lemma OldBucketSums(cs: seq<Share>, bs: seq<Bucket>, f: int)
    requires cs != [] && TallyOf(Front(cs), bs)
    requires f == Find(bs, Last(cs).id) && f >= 0
    ensures Sums(cs, bs[f := Bucket(Last(cs).id, bs[f].score + Last(cs).points, bs[f].members + 1)])
  {
    var c := Last(cs);
    var r := bs[f := Bucket(c.id, bs[f].score + c.points, bs[f].members + 1)];
    forall i | 0 <= i < |r|
      ensures r[i].score == GroupTotal(cs, r[i].id) && r[i].members == GroupCount(cs, r[i].id) && r[i].members >= 1
    {
      if i != f {
        assert r[i] == bs[i] && bs[i].id != c.id;
      }
    }
  }

  /** Rewriting a bucket under its own id keeps the ids. */
  lemma SameIds(bs: seq<Bucket>, f: int, b: Bucket)
    requires 0 <= f < |bs| && b.id == bs[f].id
    ensures forall i :: 0 <= i < |bs| ==> bs[f := b][i].id == bs[i].id
    ensures DistinctIds(bs) ==> DistinctIds(bs[f := b])
  {
    var r := bs[f := b];
    assert forall i :: 0 <= i < |r| ==> r[i].id == bs[i].id;
  }

  lemma SameIdsCover(cs: seq<Share>, bs: seq<Bucket>, r: seq<Bucket>)
    requires |r| == |bs| && forall i :: 0 <= i < |bs| ==> r[i].id == bs[i].id
    requires Covers(cs, bs)
    ensures Covers(cs, r)
  {
    forall k | 0 <= k < |cs|
      ensures Find(r, cs[k].id) >= 0
    {
      var j := Find(bs, cs[k].id);
      assert r[j].id == bs[j].id;
    }
  }

  lemma OldBucketCovers(cs: seq<Share>, r: seq<Bucket>, f: int)
    requires cs != [] && Covers(Front(cs), r)
    requires 0 <= f < |r| && r[f].id == Last(cs).id
    ensures Covers(cs, r)
  {
    forall k | 0 <= k < |cs|
      ensures Find(r, cs[k].id) >= 0
    {
      if k < |cs| - 1 {
        assert cs[k] == Front(cs)[k];
      } else {
        assert r[f].id == cs[k].id;
      }
    }
  }

  /** A group with a member has a player with that group. */
  lemma {:induction false} CountedMember(cs: seq<Share>, id: string) returns (k: nat)
    requires GroupCount(cs, id) > 0
    ensures k < |cs| && cs[k].id == id
    decreases |cs|
  {
    if Last(cs).id == id {
      k := |cs| - 1;
    } else {
      k := CountedMember(Front(cs), id);
      assert Front(cs)[k] == cs[k];
    }
  }

  lemma {:induction false} ZeroCountZeroTotal(cs: seq<Share>, id: string)
    requires GroupCount(cs, id) == 0
    ensures GroupTotal(cs, id) == 0
    decreases |cs|
  {
    if cs != [] {
      ZeroCountZeroTotal(Front(cs), id);
    }
  }

  lemma {:induction false} BucketTotalUpdate(bs: seq<Bucket>, i: nat, b: Bucket)
    requires i < |bs|
    ensures BucketTotal(bs[i := b]) == BucketTotal(bs) - bs[i].score + b.score
    decreases |bs|
  {
    if i < |bs| - 1 {
      assert Front(bs[i := b]) == Front(bs)[i := b];
      BucketTotalUpdate(Front(bs), i, b);
    } else {
      assert Front(bs[i := b]) == Front(bs);
    }
  }

  lemma TallyTotalStep(bs: seq<Bucket>, c: Share)
    ensures BucketTotal(AddTo(bs, c)) == BucketTotal(bs) + c.points
  {
    var f := Find(bs, c.id);
    if f < 0 {
      var nb := Bucket(c.id, c.points, 1);
      assert AddTo(bs, c) == bs + [nb];
      assert Front(bs + [nb]) == bs && Last(bs + [nb]) == nb;
    } else {
      var nb := Bucket(c.id, bs[f].score + c.points, bs[f].members + 1);
      assert AddTo(bs, c) == bs[f := nb];
      BucketTotalUpdate(bs, f, nb);
    }
  }

  /** Aggregation loses no points and invents none: the buckets together
      hold the sum of all players' scores. */
  lemma {:induction false} TallyPreservesTotal(cs: seq<Share>)
    ensures BucketTotal(Tally(cs)) == TotalPoints(cs)
    decreases |cs|
  {
    if cs != [] {
      var bs := Tally(Front(cs));
      TallyPreservesTotal(Front(cs));
      var c := Last(cs);
      assert TotalPoints(cs) == TotalPoints(Front(cs)) + c.points;
      assert Tally(cs) == AddTo(bs, c);
      TallyTotalStep(bs, c);
    }
  }

  // ---------------------------------------------------------------------------
  // Object.values key order

  /** An array index: the canonical decimal form of an integer below 2^32 - 1. */
  predicate IsArrayIndex(k: string)
  {
    k != [] && AllDigits(k) && NatString(ParseDigits(k)) == k && ParseDigits(k) < 4294967295
  }

  predicate HasIndexKey(b: Bucket)
  {
    IsArrayIndex(b.id)
  }

  /** The negated index, so that the descending sort puts small indices first. */
  function IndexOrder(b: Bucket): int
  {
    if IsArrayIndex(b.id) then 0 - ParseDigits(b.id) else 0
  }

  /** The elements on which `f` is `want`, in order. */
  function Filter<T>(s: seq<T>, f: T -> bool, want: bool): (r: seq<T>)
    ensures forall i :: 0 <= i < |r| ==> f(r[i]) == want
    ensures |r| <= |s|
  {
    if s == [] then []
    else Filter(Front(s), f, want) + (if f(Last(s)) == want then [Last(s)] else [])
  }

  /** The two filters together keep every element exactly once. */
  lemma {:induction false} FilterSplits<T>(s: seq<T>, f: T -> bool)
    ensures multiset(Filter(s, f, true)) + multiset(Filter(s, f, false)) == multiset(s)
    decreases |s|
  {
    if s != [] {
      var p, x := Front(s), Last(s);
      FilterSplits(p, f);
      FilterLast(s, f);
      assert s == p + [x];
    }
  }

  /** The last element goes to exactly one of the two filters. */
  lemma FilterLast<T>(s: seq<T>, f: T -> bool)
    requires s != []
    ensures multiset(Filter(s, f, true)) + multiset(Filter(s, f, false))
         == multiset(Filter(Front(s), f, true)) + multiset(Filter(Front(s), f, false)) + multiset{Last(s)}
  {
    var p, x := Front(s), Last(s);
    if f(x) {
      assert Filter(s, f, true) == Filter(p, f, true) + [x];
    } else {
      assert Filter(s, f, false) == Filter(p, f, false) + [x];
    }
  }

  lemma {:induction false} FilterAppend<T>(a: seq<T>, b: seq<T>, f: T -> bool, want: bool)
    ensures Filter(a + b, f, want) == Filter(a, f, want) + Filter(b, f, want)
    decreases |b|
  {
    if b == [] {
      assert a + b == a;
    } else {
      assert Front(a + b) == a + Front(b);
      assert Last(a + b) == Last(b);
      FilterAppend(a, Front(b), f, want);
    }
  }

  lemma {:induction false} FilterUniform<T>(a: seq<T>, f: T -> bool, want: bool)
    requires forall i :: 0 <= i < |a| ==> f(a[i]) == want
    ensures Filter(a, f, want) == a
    ensures Filter(a, f, !want) == []
    decreases |a|
  {
    if a != [] {
      FilterUniform(Front(a), f, want);
      assert a == Front(a) + [Last(a)];
    }
  }

  /** `Object.values(groupScores)`: the array-index keys in ascending numeric
      order, then the other keys in insertion order. */
  function ObjectValues(bs: seq<Bucket>): (r: seq<Bucket>)
    ensures multiset(r) == multiset(bs)
    ensures |r| == |bs|
    ensures forall i, j :: 0 <= i < j < |r| && HasIndexKey(r[j]) ==>
      HasIndexKey(r[i]) && IndexOrder(r[i]) >= IndexOrder(r[j])
    ensures Filter(r, HasIndexKey, false) == Filter(bs, HasIndexKey, false)
  {
    var idx := StableSort.Sort(Filter(bs, HasIndexKey, true), IndexOrder);
    var rest := Filter(bs, HasIndexKey, false);
    IndexKeysFirst(bs, idx, rest);
    idx + rest
  }

  lemma IndexKeysFirst(bs: seq<Bucket>, idx: seq<Bucket>, rest: seq<Bucket>)
    requires idx == StableSort.Sort(Filter(bs, HasIndexKey, true), IndexOrder)
    requires rest == Filter(bs, HasIndexKey, false)
    ensures multiset(idx + rest) == multiset(bs) && |idx + rest| == |bs|
    ensures forall i, j :: 0 <= i < j < |idx + rest| && HasIndexKey((idx + rest)[j]) ==>
      HasIndexKey((idx + rest)[i]) && IndexOrder((idx + rest)[i]) >= IndexOrder((idx + rest)[j])
    ensures Filter(idx + rest, HasIndexKey, false) == rest
  {
    var keyed := Filter(bs, HasIndexKey, true);
    StableSort.SortPermutes(keyed, IndexOrder);
    FilterSplits(bs, HasIndexKey);
    SamePropertyAfterPermutation(keyed, idx, HasIndexKey);
    OrderedPrefix(idx, rest);
    FilterAppend(idx, rest, HasIndexKey, false);
    FilterUniform(idx, HasIndexKey, true);
    FilterUniform(rest, HasIndexKey, false);
  }

  /** A property of every element survives a permutation. */
  lemma SamePropertyAfterPermutation<T>(a: seq<T>, b: seq<T>, f: T -> bool)
    requires multiset(a) == multiset(b)
    requires forall i :: 0 <= i < |a| ==> f(a[i])
    ensures forall i :: 0 <= i < |b| ==> f(b[i])
  {
    forall i | 0 <= i < |b|
      ensures f(b[i])
    {
      assert b[i] in multiset(a);
      var k :| 0 <= k < |a| && a[k] == b[i];
    }
  }

  /** Sorted index keys followed by non-index keys meet the key order. */
  lemma OrderedPrefix(idx: seq<Bucket>, rest: seq<Bucket>)
    requires forall i :: 0 <= i < |idx| ==> HasIndexKey(idx[i])
    requires forall i :: 0 <= i < |rest| ==> !HasIndexKey(rest[i])
    requires StableSort.SortedDesc(idx, IndexOrder)
    ensures forall i, j :: 0 <= i < j < |idx + rest| && HasIndexKey((idx + rest)[j]) ==>
      HasIndexKey((idx + rest)[i]) && IndexOrder((idx + rest)[i]) >= IndexOrder((idx + rest)[j])
  {
    var r := idx + rest;
    forall i, j | 0 <= i < j < |r| && HasIndexKey(r[j])
      ensures HasIndexKey(r[i]) && IndexOrder(r[i]) >= IndexOrder(r[j])
    {
      if j >= |idx| {
        assert false;
      }
      assert r[i] == idx[i] && r[j] == idx[j];
    }
  }

  // ---------------------------------------------------------------------------
  // Sorting and the podium

  /** The host's player leaderboard: `sort((a, b) => (b.score || 0) - (a.score || 0))`. */
  function RankPlayers(ps: seq<Entry>): (r: seq<Entry>)
    ensures StableSort.SortedDesc(r, ScoreOf)
    ensures multiset(r) == multiset(ps)
    ensures StableSort.Stable(r, ps, ScoreOf)
  {
    StableSort.SortIsStable(ps, ScoreOf);
    StableSort.SortPermutes(ps, ScoreOf);
    StableSort.Sort(ps, ScoreOf)
  }

  /** The group tally of the players. */
  function GroupTally(ps: seq<Entry>): (r: seq<Bucket>)
    ensures TallyOf(Shares(ps), r)
  {
    Tally(Shares(ps))
  }

  /** `Object.values(groupScores).sort((a, b) => b.score - a.score)`. */
  function SortedGroups(ps: seq<Entry>): (r: seq<Bucket>)
    ensures StableSort.SortedDesc(r, BucketScore)
    ensures multiset(r) == multiset(GroupTally(ps))
    ensures |r| == |GroupTally(ps)|
    ensures StableSort.Stable(r, ObjectValues(GroupTally(ps)), BucketScore)
  {
    StableSort.SortPermutes(ObjectValues(GroupTally(ps)), BucketScore);
    StableSort.SortIsStable(ObjectValues(GroupTally(ps)), BucketScore);
    StableSort.Sort(ObjectValues(GroupTally(ps)), BucketScore)
  }

  /** A podium slot: hidden when its group does not exist. */
  datatype Slot = Hidden | Pedestal(rank: nat, group: Bucket)

  /** `[sorted[1], sorted[0], sorted[2]]` with rank tags 2, 1, 3. */
  function Podium(sorted: seq<Bucket>): (r: seq<Slot>)
    ensures |r| == 3
    ensures r[0].Pedestal? <==> |sorted| >= 2
    ensures r[1].Pedestal? <==> |sorted| >= 1
    ensures r[2].Pedestal? <==> |sorted| >= 3
    ensures forall i :: 0 <= i < 3 && r[i].Pedestal? ==> r[i].group in sorted
    ensures |sorted| >= 1 ==> r[1] == Pedestal(1, sorted[0])
    ensures |sorted| >= 2 ==> r[0] == Pedestal(2, sorted[1])
    ensures |sorted| >= 3 ==> r[2] == Pedestal(3, sorted[2])
  {
    [Place(sorted, 1, 2), Place(sorted, 0, 1), Place(sorted, 2, 3)]
  }

  function Place(sorted: seq<Bucket>, i: nat, rank: nat): (r: Slot)
    ensures r.Pedestal? <==> i < |sorted|
    ensures r.Pedestal? ==> r == Pedestal(rank, sorted[i])
  {
    if i < |sorted| then Pedestal(rank, sorted[i]) else Hidden
  }

  /** The podium of `displayHostPodium` and `displayPlayerPodium`. */
  function GroupPodium(ps: seq<Entry>): (r: seq<Slot>)
    ensures |r| == 3
  {
    Podium(SortedGroups(ps))
  }

  /** The first sorted group has the highest total of all groups. */
  lemma SortedHeadIsTop(ps: seq<Entry>)
    requires ps != []
    ensures SortedGroups(ps) != []
    ensures forall b :: b in GroupTally(ps) ==> SortedGroups(ps)[0].score >= b.score
  {
    var t := GroupTally(ps);
    var s := SortedGroups(ps);
    assert Find(t, Shares(ps)[0].id) >= 0;
    StableSort.SortHeadIsMaximal(ObjectValues(t), BucketScore);
    forall b | b in t
      ensures s[0].score >= b.score
    {
      assert b in multiset(t);
      assert b in multiset(ObjectValues(t));
      assert b in ObjectValues(t);
    }
  }

  /** Gold holds a group with the highest total, silver and bronze follow in
      score order, and every shown group is a real bucket of the tally. There
      is a gold slot exactly when there is a player. */
  lemma PodiumOrder(ps: seq<Entry>)
    ensures var r := GroupPodium(ps);
      && (r[1].Pedestal? <==> ps != [])
      && (r[1].Pedestal? ==> r[1].rank == 1 && forall b :: b in GroupTally(ps) ==> r[1].group.score >= b.score)
      && (r[0].Pedestal? ==> r[0].rank == 2 && r[1].group.score >= r[0].group.score)
      && (r[2].Pedestal? ==> r[2].rank == 3 && r[0].group.score >= r[2].group.score)
      && (forall i :: 0 <= i < 3 && r[i].Pedestal? ==> r[i].group in GroupTally(ps))
  {
    var t := GroupTally(ps);
    var s := SortedGroups(ps);
    if ps != [] {
      SortedHeadIsTop(ps);
    } else {
      assert t == [];
    }
    forall i | 0 <= i < 3 && GroupPodium(ps)[i].Pedestal?
      ensures GroupPodium(ps)[i].group in t
    {
      var g := GroupPodium(ps)[i].group;
      assert g in s;
      assert g in multiset(s);
      assert g in multiset(t);
    }
  }

  // ---------------------------------------------------------------------------
  // The leader indicator

  /** `hasScores`: some player has `p.score > 0` (a missing score is not). */
  predicate HasScores(ps: seq<Entry>)
  {
    exists k :: 0 <= k < |ps| && ScoreOf(ps[k]) > 0
  }

  /** `updateLeaderIndicator`: the leading group when some player has scored
      and the first group of the sorted tally has a positive score. */
  function Leader(ps: seq<Entry>): (r: Option<Bucket>)
    ensures r.Some? ==> HasScores(ps) && r.value.score > 0 && r.value in GroupTally(ps)
  {
    if !HasScores(ps) then None
    else
      var sorted := SortedGroups(ps);
      if sorted != [] && sorted[0].score > 0 then
        assert sorted[0] in multiset(GroupTally(ps));
        Some(sorted[0])
      else None
  }

  /** The leader has the highest total of all groups. */
  lemma LeaderIsTop(ps: seq<Entry>)
    ensures Leader(ps).Some? ==> forall b :: b in GroupTally(ps) ==> Leader(ps).value.score >= b.score
  {
    if Leader(ps).Some? {
      SortedHeadIsTop(ps);
    }
  }

  /** When no score is negative, there is a leader exactly when some player has scored. */
  lemma LeaderIffScored(ps: seq<Entry>)
    requires forall k :: 0 <= k < |ps| ==> ScoreOf(ps[k]) >= 0
    ensures Leader(ps).Some? <==> HasScores(ps)
  {
    if HasScores(ps) {
      var k :| 0 <= k < |ps| && ScoreOf(ps[k]) > 0;
      var cs := Shares(ps);
      var t := GroupTally(ps);
      var f := Find(t, cs[k].id);
      PositiveMember(cs, k);
      assert t[f].score > 0 && t[f] in t;
      SortedHeadIsTop(ps);
    }
  }

  /** With no negative points, a player's positive points make their group's total positive. */
  lemma {:induction false} PositiveMember(cs: seq<Share>, k: nat)
    requires k < |cs| && cs[k].points > 0
    requires forall j :: 0 <= j < |cs| ==> cs[j].points >= 0
    ensures GroupTotal(cs, cs[k].id) > 0
    decreases |cs|
  {
    NonNegativeTotal(Front(cs), cs[k].id);
    if k < |cs| - 1 {
      assert Front(cs)[k] == cs[k];
      PositiveMember(Front(cs), k);
    }
  }

  lemma {:induction false} NonNegativeTotal(cs: seq<Share>, id: string)
    requires forall j :: 0 <= j < |cs| ==> cs[j].points >= 0
    ensures GroupTotal(cs, id) >= 0
    decreases |cs|
  {
    if cs != [] {
      NonNegativeTotal(Front(cs), id);
    }
  }

  // ---------------------------------------------------------------------------
  // Players without a group

  /** When every player is in group `id`, the group's sums are the overall sums. */
  lemma {:induction false} UniformGroup(cs: seq<Share>, id: string)
    requires forall k :: 0 <= k < |cs| ==> cs[k].id == id
    ensures GroupTotal(cs, id) == TotalPoints(cs)
    ensures GroupCount(cs, id) == |cs|
    decreases |cs|
  {
    if cs != [] {
      UniformGroup(Front(cs), id);
    }
  }

  /** Names the first two elements, when there are two. */
  lemma FirstTwo<T>(s: seq<T>)
    ensures |s| >= 2 ==> s[0] in s && s[1] in s
  {
  }

  /** Players without a group all land in the single 'Unassigned' bucket,
      which then holds everybody's points. */
  lemma Ungrouped(ps: seq<Entry>)
    requires forall k :: 0 <= k < |ps| ==> !Truthy(ps[k].group)
    ensures GroupTally(ps) == if ps == [] then [] else [Bucket(Unassigned, TotalPoints(Shares(ps)), |ps|)]
  {
    var cs := Shares(ps);
    var t := GroupTally(ps);
    forall i | 0 <= i < |t|
      ensures t[i].id == Unassigned
    {
      var k := CountedMember(cs, t[i].id);
    }
    FirstTwo(t);
    assert |t| <= 1;
    if ps != [] {
      assert Find(t, cs[0].id) >= 0;
      UniformGroup(cs, Unassigned);
    }
  }
}

=== FILE: player_flow.dfy ===
/** The player page driving the game manager (script.js): `joinGame` from
    its checks through `joinRoom` to the initial group read, and the calls
    `handleCheck` issues replayed against the room store. What the host's
    group views then make of the stored players follows from it: the group a
    player picks is never written anywhere. */
module PlayerFlow {
  import opened JsBuiltins
  import opened Answers
  import PlayerProgress
  import Rooms
  import Leaderboard

  // ---------------------------------------------------------------------------
  // Issuing the page's calls

  /** The page's calls applied to the store in order, all at clock reading
      `now`. `updateGroupProgress` is not a method of the game manager and
      writes nothing. */
  function Perform(st: Rooms.State, calls: seq<PlayerProgress.Call>, now: int): (r: Rooms.State)
    ensures r.session == st.session
    ensures Rooms.Valid(st) ==> Rooms.Valid(r) && r.rooms.Keys == st.rooms.Keys
    ensures Rooms.NoGroupData(st) ==> Rooms.NoGroupData(r)
    decreases |calls|
  {
    if calls == [] then st else Perform(Issue(st, calls[0], now), calls[1..], now)
  }

  /** Calls that leave the stored progress children alone. */
  predicate Announcement(c: PlayerProgress.Call)
  {
    !c.UpdateProgress?
  }

  /** One step of `Perform`. */
  function Issue(st: Rooms.State, c: PlayerProgress.Call, now: int): Rooms.State
  {
    match c
    case UpdateProgress(k, s) => Rooms.UpdateProgress(st, k, s, now)
    case UpdateGroupProgress(_, _, _) => st
    case SetPlayerFinished => Rooms.SetPlayerFinished(st, now)
    case Broadcast(a) => Rooms.BroadcastAction(st, a, now).state
  }

  lemma IssueAnnouncement(st: Rooms.State, c: PlayerProgress.Call, now: int)
    requires Rooms.Seated(st.session) && Announcement(c)
    ensures Issue(st, c, now).session == st.session
    ensures Rooms.SameProgress(Rooms.Own(st), Rooms.Own(Issue(st, c, now)))
  {
    var next := Issue(st, c, now);
    var k := st.session.roomCode.value;
    if c.SetPlayerFinished? {
      assert Rooms.RoomAt(next.rooms, k) == next.rooms[k];
    } else if c.Broadcast? {
      if Rooms.BroadcastAction(st, c.action, now).outcome.Pushed? {
        assert Rooms.RoomAt(next.rooms, k) == next.rooms[k];
      }
    }
  }

  lemma {:induction false} AnnouncementsKeepProgress(st: Rooms.State, calls: seq<PlayerProgress.Call>, now: int)
    requires Rooms.Seated(st.session)
    requires forall i :: 0 <= i < |calls| ==> Announcement(calls[i])
    ensures Rooms.SameProgress(Rooms.Own(st), Rooms.Own(Perform(st, calls, now)))
    decreases |calls|
  {
    if calls != [] {
      var next := Issue(st, calls[0], now);
      assert Perform(st, calls, now) == Perform(next, calls[1..], now);
      IssueAnnouncement(st, calls[0], now);
      AnnouncementsKeepProgress(next, calls[1..], now);
    }
  }

  /** A progress report followed by announcements leaves the reported
      figures in the player's node. */
  lemma ReportThenAnnounce(st: Rooms.State, calls: seq<PlayerProgress.Call>, now: int)
    requires Rooms.Seated(st.session)
    requires calls != [] && calls[0].UpdateProgress?
    requires forall i :: 1 <= i < |calls| ==> Announcement(calls[i])
    ensures Rooms.Own(Perform(st, calls, now)).completedCount == Some(calls[0].completed)
    ensures Rooms.Own(Perform(st, calls, now)).score == Some(calls[0].score)
  {
    var c := st.session.roomCode.value;
    var first := Issue(st, calls[0], now);
    assert Rooms.RoomAt(first.rooms, c) == first.rooms[c];
    assert Perform(st, calls, now) == Perform(first, calls[1..], now);
    assert forall i :: 0 <= i < |calls[1..]| ==> Announcement(calls[1..][i]) by {
      forall i | 0 <= i < |calls[1..]|
        ensures Announcement(calls[1..][i])
      {
        assert calls[1..][i] == calls[i + 1];
      }
    }
    AnnouncementsKeepProgress(first, calls[1..], now);
  }

  /** After a correct answer the player's stored node mirrors the page: its
      `completedCount` and `score` are the page's answered count and score. */
  lemma ProgressIsMirrored(st: Rooms.State, table: Table, local: PlayerProgress.Local,
                           val: string, group: Option<string>, now: int)
    requires Rooms.Seated(st.session)
    ensures var h := PlayerProgress.HandleCheck(table, local, val, group);
      h.verdict.Correct? ==>
        var own := Rooms.Own(Perform(st, h.calls, now));
        own.completedCount == Some(|h.local.answered|) && own.score == Some(h.local.score)
  {
    var h := PlayerProgress.HandleCheck(table, local, val, group);
    if h.verdict.Correct? {
      ReportThenAnnounce(st, h.calls, now);
    }
  }

  // ---------------------------------------------------------------------------
  // joinGame

  /** The page after `joinGame`: the store, the page's answered set and
      score, and whether the player got in. */
  datatype Joining = Joining(state: Rooms.State, local: PlayerProgress.Local, joined: bool)

  /** The stored players' names, under their ids: what
      `Object.values(existingPlayers)` is searched for. */
  function NamesOf(players: map<string, Rooms.Player>): (r: map<string, Option<string>>)
    ensures r.Keys == players.Keys
    ensures forall pid :: pid in players ==> r[pid] == players[pid].name
  {
    map pid | pid in players :: players[pid].name
  }

  /** The group snapshot the initial read finds, if any. */
  function GroupSnapshot(room: Rooms.Room, group: string): Option<seq<int>>
  {
    if group in room.groups then Some(room.groups[group]) else None
  }

  /** `joinGame`: the join checks on the players stored under the trimmed
      code, then, when they pass, `Enter`. */
  function JoinGame(st: Rooms.State, nameRaw: string, codeRaw: string, group: Option<string>,
                    suffix: string, local: PlayerProgress.Local, now: int): (r: Joining)
    ensures var d := PlayerProgress.DecideJoin(nameRaw, codeRaw, group, NamesOf(Rooms.RoomAt(st.rooms, Trim(codeRaw)).players));
      r.joined <==> d.Proceed? && Trim(codeRaw) in st.rooms
    ensures !r.joined ==> r.state == st && r.local == local
    ensures r.joined ==>
      && Rooms.Seated(r.state.session)
      && r.state.session.roomCode == Some(Trim(codeRaw))
      && r.state.session.playerId == Some(Rooms.PlayerPrefix + suffix)
      && Rooms.Own(r.state).name == Some(Trim(nameRaw))
      && r.state.rooms.Keys == st.rooms.Keys
  {
    var d := PlayerProgress.DecideJoin(nameRaw, codeRaw, group, NamesOf(Rooms.RoomAt(st.rooms, Trim(codeRaw)).players));
    if d.Proceed? then Enter(st, d.code, d.name, d.group, suffix, local, now)
    else Joining(st, local, false)
  }

  /** Whichever id it is stored under, a player already in the room whose
      name equals the trimmed name up to ASCII case keeps the newcomer out,
      and nothing changes. */
  lemma TakenNameKeepsOut(st: Rooms.State, nameRaw: string, codeRaw: string, group: Option<string>,
                          suffix: string, local: PlayerProgress.Local, now: int, pid: string)
    requires pid in Rooms.RoomAt(st.rooms, Trim(codeRaw)).players
    requires PlayerProgress.NameClash(Rooms.RoomAt(st.rooms, Trim(codeRaw)).players[pid].name, Trim(nameRaw))
    ensures var r := JoinGame(st, nameRaw, codeRaw, group, suffix, local, now);
      !r.joined && r.state == st && r.local == local
  {
  }

  /** What `joinGame` does once the checks pass: `joinRoom(code, name)` (the
      group argument is dropped), then the one-off read of the group's
      answered list. The checks have made sure the code is not empty. */
  function Enter(st: Rooms.State, code: string, name: string, group: string,
                 suffix: string, local: PlayerProgress.Local, now: int): (r: Joining)
    requires code != ""
    ensures r.joined <==> code in st.rooms
    ensures !r.joined ==> r.state == st && r.local == local
    ensures r.joined ==>
      && Rooms.Seated(r.state.session)
      && r.state.session.roomCode == Some(code)
      && r.state.session.playerId == Some(Rooms.PlayerPrefix + suffix)
      && Rooms.Own(r.state).name == Some(name)
      && r.state.rooms.Keys == st.rooms.Keys
  {
    var j := Rooms.JoinRoom(st, code, name, suffix);
    if j.result.Err? then Joining(st, local, false)
    else
      var a := PlayerProgress.InitialSync(local, Some(group), GroupSnapshot(j.state.rooms[code], group));
      JoinedKeepsName(j.state, a.calls, now);
      Joining(Perform(j.state, a.calls, now), a.local, true)
  }

  /** Without group data the read after joining finds nothing. */
  lemma EnterWithoutGroupData(st: Rooms.State, code: string, name: string, group: string,
                              suffix: string, local: PlayerProgress.Local, now: int)
    requires code != "" && Rooms.NoGroupData(st)
    ensures var r := Enter(st, code, name, group, suffix, local, now);
      && r.local == local
      && (r.joined ==> r.state == Rooms.JoinRoom(st, code, name, suffix).state)
  {
  }

  lemma JoinedKeepsName(st: Rooms.State, calls: seq<PlayerProgress.Call>, now: int)
    requires Rooms.Seated(st.session)
    requires forall i :: 0 <= i < |calls| ==> calls[i].UpdateProgress?
    ensures Rooms.Own(Perform(st, calls, now)).name == Rooms.Own(st).name
    decreases |calls|
  {
    if calls != [] {
      var c := st.session.roomCode.value;
      var next := Issue(st, calls[0], now);
      assert Rooms.RoomAt(next.rooms, c) == next.rooms[c];
      JoinedKeepsName(next, calls[1..], now);
    }
  }

  /** In any store the game manager can produce, no group data exists, so
      the initial read never changes the page and `joinGame` amounts to
      `joinRoom` with the trimmed code and name. */
  lemma JoinGameIsJoinRoom(st: Rooms.State, nameRaw: string, codeRaw: string, group: Option<string>,
                           suffix: string, local: PlayerProgress.Local, now: int)
    requires Rooms.NoGroupData(st)
    ensures var r := JoinGame(st, nameRaw, codeRaw, group, suffix, local, now);
      && r.local == local
      && (r.joined ==> r.state == Rooms.JoinRoom(st, Trim(codeRaw), Trim(nameRaw), suffix).state)
  {
    var d := PlayerProgress.DecideJoin(nameRaw, codeRaw, group, NamesOf(Rooms.RoomAt(st.rooms, Trim(codeRaw)).players));
    if d.Proceed? {
      EnterWithoutGroupData(st, d.code, d.name, d.group, suffix, local, now);
    }
  }

  /** The group is dropped: in a store the game manager can produce, which
      group the player picks makes no difference to the outcome. */
  lemma GroupChoiceIsDropped(st: Rooms.State, nameRaw: string, codeRaw: string, g1: string, g2: string,
                             suffix: string, local: PlayerProgress.Local, now: int)
    requires Rooms.NoGroupData(st)
    requires g1 != "" && g2 != ""
    ensures JoinGame(st, nameRaw, codeRaw, Some(g1), suffix, local, now)
         == JoinGame(st, nameRaw, codeRaw, Some(g2), suffix, local, now)
  {
    JoinGameIsJoinRoom(st, nameRaw, codeRaw, Some(g1), suffix, local, now);
    JoinGameIsJoinRoom(st, nameRaw, codeRaw, Some(g2), suffix, local, now);
  }

  // ---------------------------------------------------------------------------
  // What the host's group views see

  /** The fields the views read from a stored player. The store has no
      `group` child for them to read. */
  function EntryOf(p: Rooms.Player): (e: Leaderboard.Entry)
    ensures e.name == p.name && e.score == p.score && e.group.None?
  {
    Leaderboard.Entry(p.name, None, p.score)
  }

  function Entries(ps: seq<Rooms.Player>): (r: seq<Leaderboard.Entry>)
    ensures |r| == |ps|
    ensures forall k :: 0 <= k < |ps| ==> r[k] == EntryOf(ps[k])
  {
    seq(|ps|, k requires 0 <= k < |ps| => EntryOf(ps[k]))
  }

  /** Every stored player is tallied under 'Unassigned': one bucket holding
      all players and all their points. */
  lemma StoredPlayersAreUnassigned(ps: seq<Rooms.Player>)
    ensures Leaderboard.GroupTally(Entries(ps)) ==
      if ps == [] then []
      else [Leaderboard.Bucket(Leaderboard.Unassigned, Leaderboard.TotalPoints(Leaderboard.Shares(Entries(ps))), |ps|)]
  {
    Leaderboard.Ungrouped(Entries(ps));
  }

  /** So the group podium shows only the gold pedestal, for 'Unassigned';
      the silver and bronze slots stay empty. */
  lemma PodiumShowsOnlyUnassigned(ps: seq<Rooms.Player>)
    requires ps != []
    ensures var pod := Leaderboard.GroupPodium(Entries(ps));
      && pod[0] == Leaderboard.Hidden && pod[2] == Leaderboard.Hidden
      && pod[1] == Leaderboard.Pedestal(1, Leaderboard.Bucket(Leaderboard.Unassigned,
           Leaderboard.TotalPoints(Leaderboard.Shares(Entries(ps))), |ps|))
  {
    StoredPlayersAreUnassigned(ps);
    var s := Leaderboard.SortedGroups(Entries(ps));
    assert |s| == 1;
    assert s[0] in multiset(s);
  }
}

=== FILE: player_progress.dfy ===
/** The player page's own bookkeeping (script.js): the answered set and score
    kept in page globals, what `handleCheck` does with a typed answer, how a
    group snapshot is adopted, and the checks `joinGame` makes before joining.

    The question table `allQuestions` is a parameter (`Answers.Questions` is
    the game's own), and "complete" means `answered.size >= allQuestions.length`.
    The calls the page makes on the game manager are returned as a list of
    `Call`s, in the order they are issued. */
module PlayerProgress {
  import opened JsBuiltins
  import opened Answers

  /** `playerAnsweredQuestions` and `playerScore`. */
  datatype Local = Local(answered: set<int>, score: int)

  /** The values the page starts with. */
  const Initial: Local := Local({}, 0)

  const PointsPerAnswer: int := 100

  /** The game-manager calls the page issues. */
  datatype Call =
    | UpdateProgress(completed: int, score: int)
    | UpdateGroupProgress(group: string, completed: int, indices: set<int>)
    | SetPlayerFinished
    | Broadcast(action: map<string, JsValue>)

  /** What `handleCheck` made of the input. */
  datatype Verdict = Ignored | Correct(index: nat) | Wrong

  /** The page state after `handleCheck`, the calls it issued, and whether it
      ended by throwing. */
  datatype CheckResult = CheckResult(local: Local, calls: seq<Call>, verdict: Verdict, threw: bool)

  /** The score is 100 points per answered question. */
  predicate ScoreMatches(st: Local)
  {
    st.score == PointsPerAnswer * |st.answered|
  }

  /** Every answered index names a question of the table. */
  predicate InTable(table: Table, st: Local)
  {
    forall i :: i in st.answered ==> 0 <= i < |table|
  }

  /** `playerAnsweredQuestions.size >= allQuestions.length`. */
  predicate Complete(table: Table, st: Local)
  {
    |st.answered| >= |table|
  }

  function AttemptAction(val: string): map<string, JsValue>
  {
    map["type" := JStr("answer_attempt"), "text" := JStr(val), "isCorrect" := JBool(false)]
  }

  const FinishedAction: map<string, JsValue> :=
    map["type" := JStr("player_finished"), "msg" := JStr("finished the mission!")]

  /** The announcement of a wrong attempt is never the finish announcement:
      only the former carries the typed text. */
  lemma AttemptIsNotFinish(val: string)
    ensures Broadcast(AttemptAction(val)) != Broadcast(FinishedAction)
  {
    assert "text" in AttemptAction(val) && "text" !in FinishedAction;
  }

  /** One of the two calls of the finish block. */
  predicate FinishCall(c: Call)
  {
    c == SetPlayerFinished || c == Broadcast(FinishedAction)
  }

  /** The calls end with the finish block: the player is marked finished,
      then `player_finished` is announced. */
  predicate EndsWithFinish(calls: seq<Call>)
  {
    && |calls| >= 2
    && calls[|calls| - 2] == SetPlayerFinished
    && calls[|calls| - 1] == Broadcast(FinishedAction)
  }

  /** The finish block of `handleCheck`, run once the answered set reaches
      the table size: mark the player finished, then announce it. */
  function FinishCalls(table: Table, st: Local): (r: seq<Call>)
    ensures SetPlayerFinished in r <==> Complete(table, st)
    ensures Broadcast(FinishedAction) in r <==> Complete(table, st)
    ensures Complete(table, st) ==> EndsWithFinish(r)
    ensures forall c :: c in r ==> FinishCall(c)
    ensures forall i :: 0 <= i < |r| ==> !r[i].UpdateProgress?
    ensures |r| == if Complete(table, st) then 2 else 0
  {
    if Complete(table, st) then [SetPlayerFinished, Broadcast(FinishedAction)] else []
  }

  /** Credit question `m`: `playerScore += 100; playerAnsweredQuestions.add(m)`. */
  function Credit(table: Table, st: Local, m: int): (r: Local)
    requires 0 <= m < |table| && m !in st.answered
    ensures |r.answered| == |st.answered| + 1
    ensures r.answered - st.answered == {m} && st.answered <= r.answered
    ensures r.score == st.score + PointsPerAnswer
    ensures ScoreMatches(st) ==> ScoreMatches(r)
    ensures InTable(table, st) ==> InTable(table, r)
  {
    Local(st.answered + {m}, st.score + PointsPerAnswer)
  }

  // ---------------------------------------------------------------------------
  // handleCheck

  /** `handleCheck` as written. An empty input does nothing. A wrong answer
      broadcasts an `answer_attempt`. A correct one adds 100 points and the
      matched index and reports progress; then, for a player with a group, it
      calls `gameManager.updateGroupProgress`, which the game manager does not
      define, so the call throws a TypeError and the finish block is never
      reached. */
  function HandleCheck(table: Table, st: Local, val: string, group: Option<string>): (r: CheckResult)
    ensures val == "" ==> r == CheckResult(st, [], Ignored, false)
    ensures r.verdict.Correct? <==> val != "" && Match(table, val, st.answered) >= 0
    ensures r.verdict.Correct? ==> CorrectStep(table, st, val, r.local, r.verdict.index)
    ensures !r.verdict.Correct? ==> r.local == st
    ensures r.verdict.Wrong? ==> r.calls == [Broadcast(AttemptAction(val))] && !r.threw
    ensures r.verdict.Correct? ==>
      r.calls != [] && r.calls[0] == UpdateProgress(|r.local.answered|, r.local.score)
    ensures forall i :: 1 <= i < |r.calls| ==> !r.calls[i].UpdateProgress?
    ensures r.threw <==> r.verdict.Correct? && Truthy(group)
    ensures SetPlayerFinished in r.calls <==>
      r.verdict.Correct? && !Truthy(group) && Complete(table, r.local)
    ensures Broadcast(FinishedAction) in r.calls <==>
      r.verdict.Correct? && !Truthy(group) && Complete(table, r.local)
    ensures r.verdict.Correct? && !Truthy(group) && Complete(table, r.local) ==> EndsWithFinish(r.calls)
    ensures r.verdict.Correct? ==> forall c :: c in r.calls ==>
      c == UpdateProgress(|r.local.answered|, r.local.score) || FinishCall(c)
    ensures r.threw ==> r.calls == [UpdateProgress(|r.local.answered|, r.local.score)]
    ensures r.verdict.Correct? ==>
      |r.calls| == if !Truthy(group) && Complete(table, r.local) then 3 else 1
    ensures ScoreMatches(st) ==> ScoreMatches(r.local)
    ensures InTable(table, st) ==> InTable(table, r.local)
  {
    if val == "" then CheckResult(st, [], Ignored, false)
    else
      var m := Match(table, val, st.answered);
      if m >= 0 then
        AfterCredit(table, Credit(table, st, m), m, group)
      else
        AttemptIsNotFinish(val);
        CheckResult(st, [Broadcast(AttemptAction(val))], Wrong, false)
  }

  /** The rest of `handleCheck` once question `m` is credited: report the
      progress, then either throw on the group report or run the finish block. */
  function AfterCredit(table: Table, next: Local, m: nat, group: Option<string>): (r: CheckResult)
    ensures r.local == next && r.verdict == Correct(m)
    ensures r.calls != [] && r.calls[0] == UpdateProgress(|next.answered|, next.score)
    ensures forall i :: 1 <= i < |r.calls| ==> !r.calls[i].UpdateProgress?
    ensures r.threw <==> Truthy(group)
    ensures SetPlayerFinished in r.calls <==> !Truthy(group) && Complete(table, next)
    ensures Broadcast(FinishedAction) in r.calls <==> !Truthy(group) && Complete(table, next)
    ensures !Truthy(group) && Complete(table, next) ==> EndsWithFinish(r.calls)
    ensures forall c :: c in r.calls ==> c == UpdateProgress(|next.answered|, next.score) || FinishCall(c)
    ensures r.threw ==> r.calls == [UpdateProgress(|next.answered|, next.score)]
    ensures |r.calls| == if !Truthy(group) && Complete(table, next) then 3 else 1
  {
    var progress := UpdateProgress(|next.answered|, next.score);
    if Truthy(group) then CheckResult(next, [progress], Correct(m), true)
    else CheckResult(next, [progress] + FinishCalls(table, next), Correct(m), false)
  }

  /** `handleCheck` as its finish block shows it was meant to run: the group
      report is issued as a call and does not stop the function, so every
      player who completes the table is marked finished and announced. */
  function HandleCheckIntended(table: Table, st: Local, val: string, group: Option<string>): (r: CheckResult)
    ensures val == "" ==> r == CheckResult(st, [], Ignored, false)
    ensures r.verdict.Correct? <==> val != "" && Match(table, val, st.answered) >= 0
    ensures r.verdict.Correct? ==> CorrectStep(table, st, val, r.local, r.verdict.index)
    ensures !r.verdict.Correct? ==> r.local == st
    ensures r.verdict.Wrong? ==> r.calls == [Broadcast(AttemptAction(val))]
    ensures !r.threw
    ensures r.verdict.Correct? && Truthy(group) ==>
      UpdateGroupProgress(group.value, |r.local.answered|, r.local.answered) in r.calls
    ensures SetPlayerFinished in r.calls <==> r.verdict.Correct? && Complete(table, r.local)
    ensures Broadcast(FinishedAction) in r.calls <==> r.verdict.Correct? && Complete(table, r.local)
    ensures r.verdict.Correct? && Complete(table, r.local) ==> EndsWithFinish(r.calls)
    ensures r.verdict.Correct? ==> forall c :: c in r.calls ==>
      || c == UpdateProgress(|r.local.answered|, r.local.score)
      || (Truthy(group) && c == UpdateGroupProgress(group.value, |r.local.answered|, r.local.answered))
      || FinishCall(c)
    ensures r.verdict.Correct? ==>
      |r.calls| == 1 + (if Truthy(group) then 1 else 0) + (if Complete(table, r.local) then 2 else 0)
    ensures ScoreMatches(st) ==> ScoreMatches(r.local)
    ensures InTable(table, st) ==> InTable(table, r.local)
  {
    if val == "" then CheckResult(st, [], Ignored, false)
    else
      var m := Match(table, val, st.answered);
      if m >= 0 then
        AfterCreditIntended(table, Credit(table, st, m), m, group)
      else
        AttemptIsNotFinish(val);
        CheckResult(st, [Broadcast(AttemptAction(val))], Wrong, false)
  }

  /** The rest of the intended `handleCheck`: report the progress, issue the
      group report when there is a group, and run the finish block. */
  function AfterCreditIntended(table: Table, next: Local, m: nat, group: Option<string>): (r: CheckResult)
    ensures r.local == next && r.verdict == Correct(m) && !r.threw
    ensures r.calls != [] && r.calls[0] == UpdateProgress(|next.answered|, next.score)
    ensures Truthy(group) ==> UpdateGroupProgress(group.value, |next.answered|, next.answered) in r.calls
    ensures SetPlayerFinished in r.calls <==> Complete(table, next)
    ensures Broadcast(FinishedAction) in r.calls <==> Complete(table, next)
    ensures Complete(table, next) ==> EndsWithFinish(r.calls)
    ensures forall c :: c in r.calls ==>
      || c == UpdateProgress(|next.answered|, next.score)
      || (Truthy(group) && c == UpdateGroupProgress(group.value, |next.answered|, next.answered))
      || FinishCall(c)
    ensures |r.calls| == 1 + (if Truthy(group) then 1 else 0) + (if Complete(table, next) then 2 else 0)
  {
    var progress := UpdateProgress(|next.answered|, next.score);
    if Truthy(group) then
      var report := UpdateGroupProgress(group.value, |next.answered|, next.answered);
      CheckResult(next, [progress, report] + FinishCalls(table, next), Correct(m), false)
    else CheckResult(next, [progress] + FinishCalls(table, next), Correct(m), false)
  }

  /** A correct answer: `m` is what the search found, it was not answered
      before, and it is added with exactly 100 points. */
  predicate CorrectStep(table: Table, st: Local, val: string, next: Local, m: nat)
  {
    && m == Match(table, val, st.answered)
    && m !in st.answered
    && next.answered == st.answered + {m}
    && |next.answered| == |st.answered| + 1
    && next.score == st.score + PointsPerAnswer
  }

  // ---------------------------------------------------------------------------
  // Completion

  /** The integers 0 .. n-1. */
  function Range(n: nat): (r: set<int>)
    ensures forall i :: i in r <==> 0 <= i < n
    ensures |r| == n
  {
    if n == 0 then {} else Range(n - 1) + {n - 1}
  }

  /** A set of integers drawn from 0 .. n-1 has at most n elements, and
      exactly n only when it is all of them. */
  lemma {:induction false} WithinRange(a: set<int>, n: nat)
    requires forall i :: i in a ==> 0 <= i < n
    ensures |a| <= n
    ensures |a| == n ==> a == Range(n)
  {
    if n == 0 {
      assert forall i :: i !in a;
      assert a == {};
    } else {
      var rest := a - {n - 1};
      WithinRange(rest, n - 1);
      if n - 1 in a {
        assert a == rest + {n - 1};
      } else {
        assert rest == a;
      }
    }
  }

  /** Within the table, "at least as many answered as there are questions"
      means "every question answered", and never more. */
  lemma CompleteIffAllAnswered(table: Table, st: Local)
    requires InTable(table, st)
    ensures |st.answered| <= |table|
    ensures Complete(table, st) <==> st.answered == Range(|table|)
  {
    WithinRange(st.answered, |table|);
  }

  /** Once every question is answered, no input is a correct answer. */
  lemma CompleteAcceptsNothing(table: Table, st: Local, val: string)
    requires InTable(table, st) && Complete(table, st)
    ensures Match(table, val, st.answered) == -1
  {
    CompleteIffAllAnswered(table, st);
  }

  // ---------------------------------------------------------------------------
  // A sequence of typed answers

  /** Which `handleCheck` a run uses. */
  datatype Variant = AsWritten | Intended

  function Check(v: Variant, table: Table, st: Local, val: string, group: Option<string>): (r: CheckResult)
    ensures ScoreMatches(st) ==> ScoreMatches(r.local)
    ensures InTable(table, st) ==> InTable(table, r.local)
    ensures st.answered <= r.local.answered
    ensures |st.answered| <= |r.local.answered| <= |st.answered| + 1
  {
    match v
    case AsWritten => HandleCheck(table, st, val, group)
    case Intended => HandleCheckIntended(table, st, val, group)
  }

  /** The page state and all calls after typing `vals` one after the other.
      A throw ends one `handleCheck` only; the page keeps running. */
  datatype Run = Run(local: Local, calls: seq<Call>)

  function RunChecks(v: Variant, table: Table, st: Local, vals: seq<string>, group: Option<string>): (r: Run)
    ensures ScoreMatches(st) ==> ScoreMatches(r.local)
    ensures InTable(table, st) ==> InTable(table, r.local)
    ensures st.answered <= r.local.answered
    ensures |st.answered| <= |r.local.answered|
    decreases |vals|
  {
    if vals == [] then Run(st, [])
    else
      var h := Check(v, table, st, vals[0], group);
      var rest := RunChecks(v, table, h.local, vals[1..], group);
      Run(rest.local, h.calls + rest.calls)
  }

  /** How often `c` occurs among the calls. */
  function Count(calls: seq<Call>, c: Call): nat
  {
    if calls == [] then 0
    else (if calls[0] == c then 1 else 0) + Count(calls[1..], c)
  }

  lemma {:induction false} CountAppend(a: seq<Call>, b: seq<Call>, c: Call)
    ensures Count(a + b, c) == Count(a, c) + Count(b, c)
  {
    if a == [] {
      assert a + b == b;
    } else {
      assert (a + b)[1..] == a[1..] + b;
      CountAppend(a[1..], b, c);
    }
  }

  lemma {:induction false} CountNone(calls: seq<Call>, c: Call)
    requires c !in calls
    ensures Count(calls, c) == 0
  {
    if calls != [] {
      CountNone(calls[1..], c);
    }
  }

  /** The finish block after calls that hold neither of its calls. */
  lemma {:induction false} CountThenFinish(pre: seq<Call>, table: Table, st: Local, c: Call)
    requires FinishCall(c) && c !in pre
    ensures Count(pre + FinishCalls(table, st), c) == if Complete(table, st) then 1 else 0
  {
    var fin := FinishCalls(table, st);
    CountAppend(pre, fin, c);
    CountNone(pre, c);
    if Complete(table, st) {
      assert fin == [SetPlayerFinished] + [Broadcast(FinishedAction)];
      CountAppend([SetPlayerFinished], [Broadcast(FinishedAction)], c);
      assert Count([SetPlayerFinished], c) + Count([Broadcast(FinishedAction)], c) == 1;
    } else {
      assert fin == [];
    }
  }

  /** As written, an ungrouped correct answer issues each call of the finish
      block once when it completes the table; a grouped one never does. */
  lemma AfterCreditAsWrittenFinishCount(table: Table, next: Local, m: nat, group: Option<string>, c: Call)
    requires FinishCall(c)
    ensures Count(AfterCredit(table, next, m, group).calls, c) ==
      if !Truthy(group) && Complete(table, next) then 1 else 0
  {
    var progress := UpdateProgress(|next.answered|, next.score);
    if Truthy(group) {
      CountNone([progress], c);
    } else {
      CountThenFinish([progress], table, next, c);
    }
  }

  /** One intended check issues each call of the finish block once when its
      answer completes the table, and otherwise not at all. */
  lemma StepFinishCount(table: Table, st: Local, val: string, group: Option<string>, c: Call)
    requires FinishCall(c)
    ensures var h := HandleCheckIntended(table, st, val, group);
      Count(h.calls, c) == if h.verdict.Correct? && Complete(table, h.local) then 1 else 0
  {
    var h := HandleCheckIntended(table, st, val, group);
    if h.verdict.Correct? {
      AfterCreditFinishCount(table, h.local, h.verdict.index, group, c);
    } else {
      AttemptIsNotFinish(val);
      CountNone(h.calls, c);
    }
  }

  lemma AfterCreditFinishCount(table: Table, next: Local, m: nat, group: Option<string>, c: Call)
    requires FinishCall(c)
    ensures Count(AfterCreditIntended(table, next, m, group).calls, c) == if Complete(table, next) then 1 else 0
  {
    var progress := UpdateProgress(|next.answered|, next.score);
    if Truthy(group) {
      var pre := [progress, UpdateGroupProgress(group.value, |next.answered|, next.answered)];
      assert c !in pre;
      CountThenFinish(pre, table, next, c);
    } else {
      CountThenFinish([progress], table, next, c);
    }
  }

  /** With the intended `handleCheck`, a player whose answers stay within the
      table is marked finished, and announced as finished, exactly once if a
      run completes the table, and never otherwise. */
  lemma IntendedFinishesExactlyOnce(table: Table, st: Local, vals: seq<string>, group: Option<string>)
    requires InTable(table, st)
    ensures var r := RunChecks(Intended, table, st, vals, group);
      var n := if !Complete(table, st) && Complete(table, r.local) then 1 else 0;
      Count(r.calls, SetPlayerFinished) == n && Count(r.calls, Broadcast(FinishedAction)) == n
  {
    IntendedFinishCount(table, st, vals, group, SetPlayerFinished);
    IntendedFinishCount(table, st, vals, group, Broadcast(FinishedAction));
  }

  lemma {:induction false} IntendedFinishCount(table: Table, st: Local, vals: seq<string>, group: Option<string>, c: Call)
    requires InTable(table, st) && FinishCall(c)
    ensures var r := RunChecks(Intended, table, st, vals, group);
      Count(r.calls, c) == if !Complete(table, st) && Complete(table, r.local) then 1 else 0
    decreases |vals|
  {
    if vals != [] {
      var h := HandleCheckIntended(table, st, vals[0], group);
      assert h == Check(Intended, table, st, vals[0], group);
      var rest := RunChecks(Intended, table, h.local, vals[1..], group);
      assert RunChecks(Intended, table, st, vals, group) == Run(rest.local, h.calls + rest.calls);
      CountAppend(h.calls, rest.calls, c);
      IntendedFinishCount(table, h.local, vals[1..], group, c);
      StepFinishCount(table, st, vals[0], group, c);
      if Complete(table, st) {
        CompleteAcceptsNothing(table, st, vals[0]);
        assert !h.verdict.Correct? && h.local == st;
        assert Count(h.calls, c) == 0 && Count(rest.calls, c) == 0;
      } else if Complete(table, h.local) {
        assert h.verdict.Correct?;
        assert |h.local.answered| <= |rest.local.answered|;
        assert Complete(table, rest.local);
        assert Count(h.calls, c) == 1;
        assert Count(rest.calls, c) == 0;
      } else {
        assert Count(h.calls, c) == 0;
      }
      var r := RunChecks(Intended, table, st, vals, group);
      assert r.local == rest.local && r.calls == h.calls + rest.calls;
      assert Count(r.calls, c) == if !Complete(table, st) && Complete(table, r.local) then 1 else 0;
    } else {
      assert RunChecks(Intended, table, st, vals, group) == Run(st, []);
    }
  }

  /** As written, a player with a group is never marked finished nor
      announced as finished by `handleCheck`, however many answers they get
      right. */
  lemma GroupedPlayerNeverFinishes(table: Table, st: Local, vals: seq<string>, group: Option<string>)
    requires Truthy(group)
    ensures var r := RunChecks(AsWritten, table, st, vals, group);
      Count(r.calls, SetPlayerFinished) == 0 && Count(r.calls, Broadcast(FinishedAction)) == 0
  {
    GroupedFinishCount(table, st, vals, group, SetPlayerFinished);
    GroupedFinishCount(table, st, vals, group, Broadcast(FinishedAction));
  }

  lemma {:induction false} GroupedFinishCount(table: Table, st: Local, vals: seq<string>, group: Option<string>, c: Call)
    requires Truthy(group) && FinishCall(c)
    ensures Count(RunChecks(AsWritten, table, st, vals, group).calls, c) == 0
    decreases |vals|
  {
    if vals != [] {
      var h := Check(AsWritten, table, st, vals[0], group);
      var rest := RunChecks(AsWritten, table, h.local, vals[1..], group);
      CountAppend(h.calls, rest.calls, c);
      GroupedFinishCount(table, h.local, vals[1..], group, c);
      CountNone(h.calls, c);
    }
  }

  /** With questions 0..16 answered, "23" matches the last question, 17. */
  lemma LastAnswerMatches()
    ensures Match(Questions, "23", Range(17)) == 17
  {
    assert |Questions| == 18;
    assert Accepts(Questions, 17, "23") by {
      DigitsAreNormal("23");
      TableIsNormalized(17, "23");
      assert Questions[17] == ["23"];
    }
    var r := Match(Questions, "23", Range(17));
    assert 17 !in Range(17);
    assert r !in Range(17) && r < 18;
  }

  /** The last question answered by a player of any group: the table is
      complete, yet `handleCheck` throws before its finish block. */
  lemma LastAnswerOfGroupedPlayer(group: string)
    requires group != ""
    ensures var r := HandleCheck(Questions, Local(Range(17), 1700), "23", Some(group));
      && r.verdict == Correct(17)
      && Complete(Questions, r.local)
      && r.threw
      && SetPlayerFinished !in r.calls
      && Broadcast(FinishedAction) !in r.calls
  {
    LastAnswerMatches();
    QuestionsSize();
  }

  /** The same answer under the intended `handleCheck` finishes the player. */
  lemma LastAnswerOfGroupedPlayerIntended(group: string)
    requires group != ""
    ensures var r := HandleCheckIntended(Questions, Local(Range(17), 1700), "23", Some(group));
      && r.verdict == Correct(17)
      && !r.threw
      && EndsWithFinish(r.calls)
      && Count(r.calls, SetPlayerFinished) == 1
      && Count(r.calls, Broadcast(FinishedAction)) == 1
  {
    var st := Local(Range(17), 1700);
    LastAnswerMatches();
    QuestionsSize();
    StepFinishCount(Questions, st, "23", Some(group), SetPlayerFinished);
    StepFinishCount(Questions, st, "23", Some(group), Broadcast(FinishedAction));
  }

  // ---------------------------------------------------------------------------
  // Group snapshots

  /** The page state and calls after a group snapshot is handled. */
  datatype Adoption = Adoption(local: Local, calls: seq<Call>)

  /** `new Set(array)`. */
  function Elements(s: seq<int>): (r: set<int>)
    ensures forall x :: x in r <==> x in s
  {
    set x | x in s
  }

  /** The snapshot carries an answered list with more distinct entries than the page has. */
  predicate Larger(st: Local, incoming: Option<seq<int>>)
  {
    incoming.Some? && |Elements(incoming.value)| > |st.answered|
  }

  /** The group-progress callback of `joinGame`: a snapshot whose answered set
      is strictly larger replaces the local one (it is not merged with it),
      the score becomes 100 per entry, progress is reported, and a snapshot
      that reaches the table size marks the player finished. Anything else
      changes nothing. */
  function AdoptSnapshot(table: Table, st: Local, incoming: Option<seq<int>>): (r: Adoption)
    ensures Larger(st, incoming) ==>
      && r.local.answered == Elements(incoming.value)
      && ScoreMatches(r.local)
      && r.calls != [] && r.calls[0] == UpdateProgress(|r.local.answered|, r.local.score)
    ensures !Larger(st, incoming) ==> r == Adoption(st, [])
    ensures |r.local.answered| >= |st.answered|
    ensures ScoreMatches(st) ==> ScoreMatches(r.local)
    ensures SetPlayerFinished in r.calls <==> Larger(st, incoming) && Complete(table, r.local)
    ensures Larger(st, incoming) ==>
      && |r.calls| == (if Complete(table, r.local) then 2 else 1)
      && forall i :: 1 <= i < |r.calls| ==> r.calls[i] == SetPlayerFinished
  {
    if incoming.Some? then
      var got := Elements(incoming.value);
      if |got| > |st.answered| then
        var next := Local(got, |got| * PointsPerAnswer);
        var progress := UpdateProgress(|got|, next.score);
        Adoption(next, [progress] + (if |got| < |table| then [] else [SetPlayerFinished]))
      else Adoption(st, [])
    else Adoption(st, [])
  }

  /** Adoption replaces rather than unites: a local answer the snapshot lacks is lost. */
  lemma AdoptionIsNotUnion()
    ensures AdoptSnapshot(Questions, Local({0}, 100), Some([1, 2])).local == Local({1, 2}, 200)
  {
    assert Elements([1, 2]) == {1, 2};
    assert |{1, 2}| == 2;
  }

  /** The one-off read of `joinGame` right after joining: a group snapshot with
      an answered list replaces the local set whatever its size. */
  function InitialSync(st: Local, group: Option<string>, incoming: Option<seq<int>>): (r: Adoption)
    ensures Truthy(group) && incoming.Some? ==>
      && r.local.answered == Elements(incoming.value)
      && ScoreMatches(r.local)
      && r.calls == [UpdateProgress(|r.local.answered|, r.local.score)]
    ensures !(Truthy(group) && incoming.Some?) ==> r == Adoption(st, [])
  {
    if Truthy(group) && incoming.Some? then
      var got := Elements(incoming.value);
      var next := Local(got, |got| * PointsPerAnswer);
      Adoption(next, [UpdateProgress(|got|, next.score)])
    else Adoption(st, [])
  }

  /** Unlike the callback, the initial read can shrink the answered set. */
  lemma InitialSyncCanShrink()
    ensures |InitialSync(Local({0, 1}, 200), Some("1"), Some([5])).local.answered| == 1
  {
    assert Elements([5]) == {5};
  }

  // ---------------------------------------------------------------------------
  // The checks of joinGame

  datatype JoinDecision = MissingInfo | BlockedName | NoGroup | NameTaken | Proceed(name: string, code: string, group: string)

  /** The block-list `joinGame` checks the lower-cased name against. */
  const BlockedPatterns: seq<string> := ["גלי", "gali", "גלגול", "גליה", "גל", "gal", "גליוש"]

  /** Some pattern of the block-list, lower-cased, occurs in the lower-cased name. */
  predicate Blocked(name: string)
  {
    exists i :: 0 <= i < |BlockedPatterns| && Includes(Lower(name), Lower(BlockedPatterns[i]))
  }

  /** Every longer pattern starts with `gal` or with its Hebrew spelling, so
      the block-list refuses exactly the names holding one of those two. */
  lemma BlockedIffGal(name: string)
    ensures Blocked(name) <==> Includes(Lower(name), "gal") || Includes(Lower(name), "גל")
  {
    var s := Lower(name);
    if Blocked(name) {
      var i :| 0 <= i < |BlockedPatterns| && Includes(s, Lower(BlockedPatterns[i]));
      PatternStartsWithGal(s, i);
    }
    if Includes(s, "gal") {
      PatternIsLower(5);
      assert Includes(s, Lower(BlockedPatterns[5]));
    }
    if Includes(s, "גל") {
      PatternIsLower(4);
      assert Includes(s, Lower(BlockedPatterns[4]));
    }
  }

  lemma PatternIsLower(i: nat)
    requires i < |BlockedPatterns|
    ensures Lower(BlockedPatterns[i]) == BlockedPatterns[i]
  {
    LowerOfLower(BlockedPatterns[i]);
  }

  lemma PatternStartsWithGal(s: string, i: nat)
    requires i < |BlockedPatterns| && Includes(s, Lower(BlockedPatterns[i]))
    ensures Includes(s, "gal") || Includes(s, "גל")
  {
    PatternIsLower(i);
    var p := BlockedPatterns[i];
    if i == 1 || i == 5 {
      IncludesPrefix(s, p, 3);
      assert p[..3] == "gal";
    } else {
      IncludesPrefix(s, p, 2);
      assert p[..2] == "גל";
    }
  }

  /** `p.name && p.name.toLowerCase() === name.toLowerCase()`: a player without
      a name never clashes. */
  predicate NameClash(existing: Option<string>, name: string)
  {
    Truthy(existing) && Lower(existing.value) == Lower(name)
  }

  /** The checks `joinGame` makes before calling `joinRoom`, in their order:
      the trimmed name and code must be non-empty, the name must pass the
      block-list, a group must be chosen, and no player already in the room
      may carry the trimmed name up to ASCII case. `names` maps each stored
      player id to that player's name. */
  function DecideJoin(nameRaw: string, codeRaw: string, group: Option<string>, names: map<string, Option<string>>): (d: JoinDecision)
    ensures d == MissingInfo <==> Trim(nameRaw) == "" || Trim(codeRaw) == ""
    ensures d == BlockedName <==> Trim(nameRaw) != "" && Trim(codeRaw) != "" && Blocked(Trim(nameRaw))
    ensures d == NoGroup <==>
      && Trim(nameRaw) != "" && Trim(codeRaw) != "" && !Blocked(Trim(nameRaw))
      && !Truthy(group)
    ensures d == NameTaken <==>
      && Trim(nameRaw) != "" && Trim(codeRaw) != "" && !Blocked(Trim(nameRaw))
      && Truthy(group)
      && exists pid :: pid in names && NameClash(names[pid], Trim(nameRaw))
    ensures d.Proceed? ==>
      && d == Proceed(Trim(nameRaw), Trim(codeRaw), group.value)
      && !Blocked(d.name)
      && forall pid :: pid in names ==> !NameClash(names[pid], d.name)
  {
    var name := Trim(nameRaw);
    var code := Trim(codeRaw);
    if name == "" || code == "" then MissingInfo
    else if Blocked(name) then BlockedName
    else if !Truthy(group) then NoGroup
    else if exists pid :: pid in names && NameClash(names[pid], name) then NameTaken
    else Proceed(name, code, group.value)
  }

  /** A name that differs from a player's only in ASCII case and surrounding
      whitespace is refused. */
  lemma NameCheckIgnoresCaseAndSpace(p: string, typed: string, q: string, codeRaw: string,
                                     group: Option<string>, names: map<string, Option<string>>, pid: string)
    requires AllWhitespace(p) && AllWhitespace(q)
    requires typed != [] && !IsWhitespace(typed[0]) && !IsWhitespace(typed[|typed| - 1])
    requires !Blocked(typed) && Trim(codeRaw) != "" && Truthy(group)
    requires pid in names && Truthy(names[pid]) && Lower(names[pid].value) == Lower(typed)
    ensures DecideJoin(p + typed + q, codeRaw, group, names) == NameTaken
  {
    TrimPadded(p, typed, q);
    assert NameClash(names[pid], Trim(p + typed + q));
  }

  /** Only the new name is trimmed: a stored name with trailing whitespace
      does not clash with the same name typed without it. */
  lemma StoredNameIsNotTrimmed(name: string, q: string, codeRaw: string, group: Option<string>, pid: string)
    requires name != [] && !IsWhitespace(name[0]) && !IsWhitespace(name[|name| - 1])
    requires q != [] && AllWhitespace(q)
    requires !Blocked(name) && Trim(codeRaw) != "" && Truthy(group)
    ensures DecideJoin(name, codeRaw, group, map[pid := Some(name + q)]) == Proceed(name, Trim(codeRaw), group.value)
  {
    TrimOfTrimmed(name);
    assert |Lower(name + q)| != |Lower(name)|;
  }
}

=== FILE: rooms.dfy ===
/** `GameManager` of game-manager.js as transformers over an abstract copy of
    the realtime database: a map from room code to room document, plus the
    fields one client keeps in its `GameManager` instance. Clock readings and
    random draws are parameters.

    Firebase writes have their plain meanings: `set` replaces a node, `update`
    overwrites the listed children and keeps the others (creating the node
    when it is missing), and `push` appends to a list. */
module Rooms {
  import opened JsBuiltins

  /** The `status` strings 'lobby', 'playing' and 'finished'. */
  datatype Status = Lobby | Playing | Finished

  /** A node under `rooms/<code>/players`. Every child is optional because
      `update` can create a node holding only the children it lists. */
  datatype Player = Player(
    name: Option<string>,
    score: Option<int>,
    streak: Option<int>,
    completedCount: Option<int>,
    lastUpdate: Option<int>,
    isFinished: Option<bool>,
    finishedTime: Option<int>)

  const NoPlayer: Player := Player(None, None, None, None, None, None, None)

  /** One message of `rooms/<code>/stream`: a JSON object of scalars. */
  type Event = map<string, JsValue>

  /** A node under `rooms`. `groups` is the `groups/<id>/answeredQuestions`
      data the player page reads; no `GameManager` method writes it. */
  datatype Room = Room(
    status: Option<Status>,
    gameId: Option<string>,
    currentQuestion: Option<int>,
    timestamp: Option<int>,
    startTime: Option<int>,
    players: map<string, Player>,
    groups: map<string, seq<int>>,
    stream: seq<Event>)

  /** What `update` finds at a path that holds nothing. */
  const NoRoom: Room := Room(None, None, None, None, None, map[], map[], [])

  /** The instance fields of one `GameManager`: `gameState` is the last room
      snapshot its `listenToGameState` listener cached. */
  datatype Session = Session(roomCode: Option<string>, playerId: Option<string>, isHost: bool, gameState: Option<Room>)

  /** The constructor: no room, no player, not host, no cached state. */
  const NewSession: Session := Session(None, None, false, None)

  datatype State = State(rooms: map<string, Room>, session: Session)

  function RoomAt(rooms: map<string, Room>, code: string): Room
  {
    if code in rooms then rooms[code] else NoRoom
  }

  function PlayerAt(players: map<string, Player>, pid: string): Player
  {
    if pid in players then players[pid] else NoPlayer
  }

  /** `after` is `before` with (at most) the entry at `key` written. */
  predicate OnlyAt<V(==)>(before: map<string, V>, after: map<string, V>, key: string)
  {
    && key in after
    && after.Keys == before.Keys + {key}
    && forall k :: k in before && k != key ==> after[k] == before[k]
  }

  /** Every room the session points at exists. Rooms are never deleted, so
      once true this stays true. */
  predicate Valid(st: State)
  {
    Truthy(st.session.roomCode) ==> st.session.roomCode.value in st.rooms
  }

  /** No room holds group data. */
  predicate NoGroupData(st: State)
  {
    forall c :: c in st.rooms ==> st.rooms[c].groups == map[]
  }

  // ---------------------------------------------------------------------------
  // Host methods

  /** The integer `Math.floor(Math.random() * 9000)` draws. */
  type Draw = d: int | 0 <= d < 9000

  /** `generateRoomCode`: the decimal string of `1000 + draw`, which always
      has four digits and reads back as that number. */
  function RoomCode(draw: Draw): (code: string)
    ensures |code| == 4 && AllDigits(code) && code[0] != '0'
    ensures 1000 <= ParseDigits(code) <= 9999
    ensures ParseDigits(code) == 1000 + draw
  {
    var n := 1000 + draw;
    assert Pow10(3) == 1000 && Pow10(4) == 10000 by {
      assert Pow10(1) == 10;
      assert Pow10(2) == 100;
    }
    NatStringLength(n, 4);
    ParseNatString(n);
    NatString(n)
  }

  /** Different draws give different codes. */
  lemma RoomCodeInjective(d1: Draw, d2: Draw)
    ensures RoomCode(d1) == RoomCode(d2) <==> d1 == d2
  {
  }

  /** The document `createRoom` writes. */
  function NewRoom(gameId: string, now: int): (r: Room)
    ensures r.status == Some(Lobby) && r.currentQuestion == Some(-1)
    ensures r.gameId == Some(gameId) && r.timestamp == Some(now)
    ensures r.startTime.None? && r.players == map[] && r.groups == map[] && r.stream == []
  {
    Room(Some(Lobby), Some(gameId), Some(-1), Some(now), None, map[], map[], [])
  }

  /** `createRoom(gameId)`: `set` a fresh lobby at the drawn code, replacing
      whatever was there, and become its host. */
  function CreateRoom(st: State, gameId: string, draw: Draw, now: int): (r: State)
    ensures var c := RoomCode(draw);
      && OnlyAt(st.rooms, r.rooms, c)
      && r.rooms[c] == NewRoom(gameId, now)
      && r.session == st.session.(isHost := true, roomCode := Some(c))
    ensures Valid(r)
    ensures NoGroupData(st) ==> NoGroupData(r)
  {
    var c := RoomCode(draw);
    State(st.rooms[c := NewRoom(gameId, now)], st.session.(isHost := true, roomCode := Some(c)))
  }

  /** A drawn code that is already in use is not redrawn: the earlier room's
      players and stream are gone. */
  lemma CreateRoomOverwrites(st: State, gameId: string, draw: Draw, now: int)
    requires RoomCode(draw) in st.rooms
    ensures CreateRoom(st, gameId, draw, now).rooms.Keys == st.rooms.Keys
    ensures CreateRoom(st, gameId, draw, now).rooms[RoomCode(draw)].players == map[]
    ensures CreateRoom(st, gameId, draw, now).rooms[RoomCode(draw)].stream == []
  {
  }

  /** `startGame`: `update` status, question and start time, from any status. */
  function StartGame(st: State, now: int): (r: State)
    ensures !Truthy(st.session.roomCode) ==> r == st
    ensures Truthy(st.session.roomCode) ==> var c := st.session.roomCode.value;
      && OnlyAt(st.rooms, r.rooms, c) && r.session == st.session
      && r.rooms[c].status == Some(Playing)
      && r.rooms[c].currentQuestion == Some(0)
      && r.rooms[c].startTime == Some(now)
      && KeepsContent(RoomAt(st.rooms, c), r.rooms[c])
      && r.rooms[c].timestamp == RoomAt(st.rooms, c).timestamp
    ensures Valid(st) ==> Valid(r) && r.rooms.Keys == st.rooms.Keys
    ensures NoGroupData(st) ==> NoGroupData(r)
  {
    if !Truthy(st.session.roomCode) then st
    else
      var c := st.session.roomCode.value;
      var room := RoomAt(st.rooms, c);
      st.(rooms := st.rooms[c := room.(status := Some(Playing), currentQuestion := Some(0), startTime := Some(now))])
  }

  /** The game's content survives a lifecycle `update`: game, players, groups
      and stream are as before. */
  predicate KeepsContent(before: Room, after: Room)
  {
    && after.gameId == before.gameId
    && after.players == before.players
    && after.groups == before.groups
    && after.stream == before.stream
  }

  /** `nextQuestion(nextIndex)`: `update` the question and restart the clock;
      the status is left as it is. */
  function NextQuestion(st: State, nextIndex: int, now: int): (r: State)
    ensures !Truthy(st.session.roomCode) ==> r == st
    ensures Truthy(st.session.roomCode) ==> var c := st.session.roomCode.value;
      && OnlyAt(st.rooms, r.rooms, c) && r.session == st.session
      && r.rooms[c].currentQuestion == Some(nextIndex)
      && r.rooms[c].startTime == Some(now)
      && r.rooms[c].status == RoomAt(st.rooms, c).status
      && KeepsContent(RoomAt(st.rooms, c), r.rooms[c])
      && r.rooms[c].timestamp == RoomAt(st.rooms, c).timestamp
    ensures Valid(st) ==> Valid(r) && r.rooms.Keys == st.rooms.Keys
    ensures NoGroupData(st) ==> NoGroupData(r)
  {
    if !Truthy(st.session.roomCode) then st
    else
      var c := st.session.roomCode.value;
      var room := RoomAt(st.rooms, c);
      st.(rooms := st.rooms[c := room.(currentQuestion := Some(nextIndex), startTime := Some(now))])
  }

  /** `endGame`: `update` the status to finished and nothing else. */
  function EndGame(st: State): (r: State)
    ensures !Truthy(st.session.roomCode) ==> r == st
    ensures Truthy(st.session.roomCode) ==> var c := st.session.roomCode.value;
      && OnlyAt(st.rooms, r.rooms, c) && r.session == st.session
      && r.rooms[c].status == Some(Finished)
      && r.rooms[c].currentQuestion == RoomAt(st.rooms, c).currentQuestion
      && r.rooms[c].startTime == RoomAt(st.rooms, c).startTime
      && KeepsContent(RoomAt(st.rooms, c), r.rooms[c])
      && r.rooms[c].timestamp == RoomAt(st.rooms, c).timestamp
    ensures Valid(st) ==> Valid(r) && r.rooms.Keys == st.rooms.Keys
    ensures NoGroupData(st) ==> NoGroupData(r)
  {
    if !Truthy(st.session.roomCode) then st
    else
      var c := st.session.roomCode.value;
      st.(rooms := st.rooms[c := RoomAt(st.rooms, c).(status := Some(Finished))])
  }

  lemma EndGameIdempotent(st: State)
    ensures EndGame(EndGame(st)) == EndGame(st)
  {
  }

  /** No lifecycle guard: a finished game can be started again, which also
      rewinds it to the first question. */
  lemma FinishedGameRestarts(st: State, now: int)
    requires Truthy(st.session.roomCode)
    ensures var r := StartGame(EndGame(st), now); var c := st.session.roomCode.value;
      r.rooms[c].status == Some(Playing) && r.rooms[c].currentQuestion == Some(0)
  {
  }

  // ---------------------------------------------------------------------------
  // Player methods

  /** The outcome of `joinRoom`: the new state and the player id, or the
      error it throws. */
  datatype Joined = Joined(state: State, result: Result<string>)

  const RoomNotFound: string := "Room not found"
  const PlayerPrefix: string := "player_"

  /** The record `joinRoom` writes for a new player. */
  function Newcomer(name: string): (p: Player)
    ensures p.name == Some(name) && p.score == Some(0) && p.streak == Some(0)
    ensures p.completedCount.None? && p.lastUpdate.None? && p.isFinished.None? && p.finishedTime.None?
  {
    NoPlayer.(name := Some(name), score := Some(0), streak := Some(0))
  }

  /** `joinRoom(code, name)`: fail when nothing is stored at the code,
      otherwise point the session at the room and `set` the new player under
      `'player_' + suffix`, where `suffix` stands for the random base-36 draw.
      Only the code and the name are taken. */
  function JoinRoom(st: State, code: string, name: string, suffix: string): (r: Joined)
    ensures code !in st.rooms <==> r.result.Err?
    ensures r.result.Err? ==> r.result.message == RoomNotFound && r.state == st
    ensures r.result.Ok? ==> var pid := PlayerPrefix + suffix;
      && r.result.value == pid
      && OnlyAt(st.rooms, r.state.rooms, code)
      && OnlyAt(st.rooms[code].players, r.state.rooms[code].players, pid)
      && r.state.rooms[code].players[pid] == Newcomer(name)
      && r.state.rooms[code] == st.rooms[code].(players := r.state.rooms[code].players)
      && r.state.session == st.session.(roomCode := Some(code), playerId := Some(pid))
    ensures r.result.Ok? || Valid(st) ==> Valid(r.state)
    ensures r.state.rooms.Keys == st.rooms.Keys
    ensures NoGroupData(st) ==> NoGroupData(r.state)
  {
    if code !in st.rooms then Joined(st, Err(RoomNotFound))
    else
      var pid := PlayerPrefix + suffix;
      var room := st.rooms[code];
      var rooms := st.rooms[code := room.(players := room.players[pid := Newcomer(name)])];
      Joined(State(rooms, st.session.(roomCode := Some(code), playerId := Some(pid))), Ok(pid))
  }

  /** With a fresh id, joining adds exactly one player. */
  lemma JoinAddsOnePlayer(st: State, code: string, name: string, suffix: string)
    requires code in st.rooms && PlayerPrefix + suffix !in st.rooms[code].players
    ensures var r := JoinRoom(st, code, name, suffix);
      |r.state.rooms[code].players| == |st.rooms[code].players| + 1
  {
  }

  /** Both the session's room and player must be set for a player write. */
  predicate Seated(s: Session)
  {
    Truthy(s.roomCode) && Truthy(s.playerId)
  }

  /** `update` of the session's own player node to `p`; the node and the room
      are created when missing. */
  function UpdateOwn(st: State, p: Player): (r: State)
    requires Seated(st.session)
    ensures var c, pid := st.session.roomCode.value, st.session.playerId.value;
      && OnlyAt(st.rooms, r.rooms, c) && r.session == st.session
      && OnlyAt(RoomAt(st.rooms, c).players, r.rooms[c].players, pid)
      && r.rooms[c].players[pid] == p
      && r.rooms[c] == RoomAt(st.rooms, c).(players := r.rooms[c].players)
  {
    var c, pid := st.session.roomCode.value, st.session.playerId.value;
    var room := RoomAt(st.rooms, c);
    st.(rooms := st.rooms[c := room.(players := room.players[pid := p])])
  }

  lemma UpdateOwnTwice(st: State, p: Player, q: Player)
    requires Seated(st.session)
    ensures Own(UpdateOwn(st, p)) == p
    ensures UpdateOwn(UpdateOwn(st, p), q) == UpdateOwn(st, q)
  {
    var c, pid := st.session.roomCode.value, st.session.playerId.value;
    var room := RoomAt(st.rooms, c);
    var s1 := UpdateOwn(st, p);
    var room1 := RoomAt(s1.rooms, c);
    assert room1 == room.(players := room.players[pid := p]);
    assert room1.players[pid := q] == room.players[pid := q];
    assert s1.rooms[c := room1.(players := room1.players[pid := q])] == st.rooms[c := room.(players := room.players[pid := q])];
  }

  /** The session's own player node as stored, or an empty node. */
  function Own(st: State): Player
    requires Seated(st.session)
  {
    PlayerAt(RoomAt(st.rooms, st.session.roomCode.value).players, st.session.playerId.value)
  }

  /** `updateProgress(completedCount, score)`: write three children of the
      caller's own node and nothing else. */
  function UpdateProgress(st: State, completed: int, score: int, now: int): (r: State)
    ensures !Seated(st.session) ==> r == st
    ensures Seated(st.session) ==> var c, pid := st.session.roomCode.value, st.session.playerId.value;
      && OnlyAt(st.rooms, r.rooms, c) && r.session == st.session
      && OnlyAt(RoomAt(st.rooms, c).players, r.rooms[c].players, pid)
      && r.rooms[c] == RoomAt(st.rooms, c).(players := r.rooms[c].players)
      && r.rooms[c].players[pid].completedCount == Some(completed)
      && r.rooms[c].players[pid].score == Some(score)
      && r.rooms[c].players[pid].lastUpdate == Some(now)
      && SameIdentity(Own(st), r.rooms[c].players[pid])
      && SameFinish(Own(st), r.rooms[c].players[pid])
    ensures Valid(st) ==> Valid(r) && r.rooms.Keys == st.rooms.Keys
    ensures NoGroupData(st) ==> NoGroupData(r)
  {
    if !Seated(st.session) then st
    else UpdateOwn(st, Own(st).(completedCount := Some(completed), score := Some(score), lastUpdate := Some(now)))
  }

  /** Name and streak are untouched. */
  predicate SameIdentity(before: Player, after: Player)
  {
    after.name == before.name && after.streak == before.streak
  }

  predicate SameFinish(before: Player, after: Player)
  {
    after.isFinished == before.isFinished && after.finishedTime == before.finishedTime
  }

  predicate SameProgress(before: Player, after: Player)
  {
    && after.completedCount == before.completedCount
    && after.score == before.score
    && after.lastUpdate == before.lastUpdate
  }

  /** `setPlayerFinished()`: mark the caller's own node finished and stamp it. */
  function SetPlayerFinished(st: State, now: int): (r: State)
    ensures !Seated(st.session) ==> r == st
    ensures Seated(st.session) ==> var c, pid := st.session.roomCode.value, st.session.playerId.value;
      && OnlyAt(st.rooms, r.rooms, c) && r.session == st.session
      && OnlyAt(RoomAt(st.rooms, c).players, r.rooms[c].players, pid)
      && r.rooms[c] == RoomAt(st.rooms, c).(players := r.rooms[c].players)
      && r.rooms[c].players[pid].isFinished == Some(true)
      && r.rooms[c].players[pid].finishedTime == Some(now)
      && SameIdentity(Own(st), r.rooms[c].players[pid])
      && SameProgress(Own(st), r.rooms[c].players[pid])
    ensures Valid(st) ==> Valid(r) && r.rooms.Keys == st.rooms.Keys
    ensures NoGroupData(st) ==> NoGroupData(r)
  {
    if !Seated(st.session) then st
    else UpdateOwn(st, Own(st).(isFinished := Some(true), finishedTime := Some(now)))
  }

  /** Finishing twice is finishing once at the later time: the flag does not
      change, only `finishedTime` moves. */
  lemma SetPlayerFinishedTwice(st: State, t1: int, t2: int)
    ensures SetPlayerFinished(SetPlayerFinished(st, t1), t2) == SetPlayerFinished(st, t2)
  {
    if Seated(st.session) {
      UpdateOwnTwice(st, Own(st).(isFinished := Some(true), finishedTime := Some(t1)),
        Own(st).(isFinished := Some(true), finishedTime := Some(t2)));
    }
  }

  /** The two player writes touch disjoint children, so their order does not
      matter. */
  lemma ProgressAndFinishCommute(st: State, completed: int, score: int, t1: int, t2: int)
    ensures UpdateProgress(SetPlayerFinished(st, t2), completed, score, t1)
         == SetPlayerFinished(UpdateProgress(st, completed, score, t1), t2)
  {
    if Seated(st.session) {
      var p := Own(st);
      var fin := p.(isFinished := Some(true), finishedTime := Some(t2));
      var prog := p.(completedCount := Some(completed), score := Some(score), lastUpdate := Some(t1));
      var both := p.(isFinished := Some(true), finishedTime := Some(t2),
        completedCount := Some(completed), score := Some(score), lastUpdate := Some(t1));
      UpdateOwnTwice(st, fin, both);
      UpdateOwnTwice(st, prog, both);
    }
  }

  // ---------------------------------------------------------------------------
  // The action stream

  const UnknownName: string := "Unknown"
  const PlayerIdKey: string := "playerId"
  const NameKey: string := "name"
  const TimestampKey: string := "timestamp"

  /** `this.gameState?.players[this.playerId]?.name || 'Unknown'`. A cached
      room with no players has no `players` child, so indexing it throws a
      TypeError. */
  function CachedName(gameState: Option<Room>, pid: string): (r: Result<string>)
    ensures r.Err? <==> gameState.Some? && gameState.value.players == map[]
    ensures r.Ok? ==> r.value != ""
    ensures r.Ok? && r.value != UnknownName ==>
      gameState.Some? && pid in gameState.value.players && gameState.value.players[pid].name == Some(r.value)
    ensures gameState.Some? && pid in gameState.value.players && Truthy(gameState.value.players[pid].name) ==>
      r == Ok(gameState.value.players[pid].name.value)
  {
    if gameState.None? then Ok(UnknownName)
    else if gameState.value.players == map[] then Err("TypeError")
    else if pid in gameState.value.players && Truthy(gameState.value.players[pid].name) then
      Ok(gameState.value.players[pid].name.value)
    else Ok(UnknownName)
  }

  /** `{ playerId, name, ...action, timestamp }`: later keys win. */
  function Message(pid: string, name: string, action: Event, now: int): (e: Event)
    ensures e.Keys == action.Keys + {PlayerIdKey, NameKey, TimestampKey}
    ensures e[TimestampKey] == JNum(now)
    ensures forall k :: k in action && k != TimestampKey ==> e[k] == action[k]
    ensures PlayerIdKey !in action ==> e[PlayerIdKey] == JStr(pid)
    ensures NameKey !in action ==> e[NameKey] == JStr(name)
  {
    map[PlayerIdKey := JStr(pid), NameKey := JStr(name)] + action + map[TimestampKey := JNum(now)]
  }

  datatype Outcome = Skipped | Rejected(message: string) | Pushed(event: Event)
  datatype Broadcasted = Broadcasted(state: State, outcome: Outcome)

  /** `broadcastAction(action)`: `push` one message onto the room's stream. */
  function BroadcastAction(st: State, action: Event, now: int): (r: Broadcasted)
    ensures r.outcome.Skipped? <==> !Seated(st.session)
    ensures r.outcome.Rejected? <==> Seated(st.session) && CachedName(st.session.gameState, st.session.playerId.value).Err?
    ensures !r.outcome.Pushed? ==> r.state == st
    ensures r.outcome.Pushed? ==> var c, pid := st.session.roomCode.value, st.session.playerId.value;
      && Seated(st.session)
      && OnlyAt(st.rooms, r.state.rooms, c) && r.state.session == st.session
      && r.state.rooms[c].stream == RoomAt(st.rooms, c).stream + [r.outcome.event]
      && r.state.rooms[c] == RoomAt(st.rooms, c).(stream := r.state.rooms[c].stream)
      && r.outcome.event == Message(pid, CachedName(st.session.gameState, pid).value, action, now)
    ensures Valid(st) ==> Valid(r.state) && r.state.rooms.Keys == st.rooms.Keys
    ensures NoGroupData(st) ==> NoGroupData(r.state)
  {
    if !Seated(st.session) then Broadcasted(st, Skipped)
    else
      var c, pid := st.session.roomCode.value, st.session.playerId.value;
      var name := CachedName(st.session.gameState, pid);
      if name.Err? then Broadcasted(st, Rejected(name.message))
      else
        var e := Message(pid, name.value, action, now);
        var room := RoomAt(st.rooms, c);
        Broadcasted(st.(rooms := st.rooms[c := room.(stream := room.stream + [e])]), Pushed(e))
  }

  // ---------------------------------------------------------------------------
  // Runs of operations

  datatype Op =
    | Create(gameId: string, draw: Draw, now: int)
    | Start(now: int)
    | Next(index: int, now: int)
    | End
    | Join(code: string, name: string, suffix: string)
    | Progress(completed: int, score: int, now: int)
    | Finish(now: int)
    | Broadcast(action: Event, now: int)

  function Apply(st: State, op: Op): (r: State)
    ensures st.rooms.Keys <= r.rooms.Keys
    ensures Valid(st) ==> Valid(r)
    ensures NoGroupData(st) ==> NoGroupData(r)
  {
    match op
    case Create(g, d, t) => CreateRoom(st, g, d, t)
    case Start(t) => StartGame(st, t)
    case Next(i, t) => NextQuestion(st, i, t)
    case End => EndGame(st)
    case Join(c, n, s) => JoinRoom(st, c, n, s).state
    case Progress(k, s, t) => UpdateProgress(st, k, s, t)
    case Finish(t) => SetPlayerFinished(st, t)
    case Broadcast(a, t) => BroadcastAction(st, a, t).state
  }

  function RunOps(st: State, ops: seq<Op>): State
    decreases |ops|
  {
    if ops == [] then st else RunOps(Apply(st, ops[0]), ops[1..])
  }

  /** Along any run, rooms are never removed, the session never points at a
      missing room, and no room acquires group data. */
  lemma {:induction false} RunInvariants(st: State, ops: seq<Op>)
    requires Valid(st) && NoGroupData(st)
    ensures st.rooms.Keys <= RunOps(st, ops).rooms.Keys
    ensures Valid(RunOps(st, ops)) && NoGroupData(RunOps(st, ops))
    decreases |ops|
  {
    if ops != [] {
      RunInvariants(Apply(st, ops[0]), ops[1..]);
    }
  }

  /** From a fresh client and an empty database, the group data the player
      page reads for its initial sync is never there. */
  lemma {:induction false} NoGroupDataEver(ops: seq<Op>, code: string, group: string)
    ensures var st := RunOps(State(map[], NewSession), ops);
      code in st.rooms ==> group !in st.rooms[code].groups
  {
    RunInvariants(State(map[], NewSession), ops);
  }
}

=== FILE: stable_sort.dfy ===
/** `Array.prototype.sort` with a comparator of the shape `(a, b) => key(b) - key(a)`,
    which ECMAScript requires to be stable: the result is ordered by `key`
    descending, and elements with equal keys keep their input order.

    `Sort` is an insertion sort; `SortedDesc` together with `WithKey` (the
    subsequence of elements carrying one key) is the independent description,
    and `StableSortUnique` shows that description pins the result down. */
module StableSort {

  /** Ordered by key, largest first. */
  predicate SortedDesc<T>(s: seq<T>, key: T -> int)
  {
    forall i, j :: 0 <= i < j < |s| ==> key(s[i]) >= key(s[j])
  }

  /** The elements of `s` whose key is `k`, in their order in `s`. */
  function WithKey<T>(s: seq<T>, key: T -> int, k: int): (r: seq<T>)
    ensures |r| <= |s|
    ensures forall i :: 0 <= i < |r| ==> key(r[i]) == k
  {
    if s == [] then []
    else (if key(s[0]) == k then [s[0]] else []) + WithKey(s[1..], key, k)
  }

  /** Same elements, and for every key the same elements in the same order. */
  ghost predicate Stable<T>(r: seq<T>, s: seq<T>, key: T -> int)
  {
    forall k :: WithKey(r, key, k) == WithKey(s, key, k)
  }

  lemma {:induction false} WithKeyAppend<T>(a: seq<T>, b: seq<T>, key: T -> int, k: int)
    ensures WithKey(a + b, key, k) == WithKey(a, key, k) + WithKey(b, key, k)
    decreases |a|
  {
    if a == [] {
      assert a + b == b;
    } else {
      assert (a + b)[1..] == a[1..] + b;
      WithKeyAppend(a[1..], b, key, k);
    }
  }

  /** Insert `x` in front of the first element whose key does not exceed its own. */
  function Insert<T>(x: T, s: seq<T>, key: T -> int): (r: seq<T>)
    requires SortedDesc(s, key)
    ensures SortedDesc(r, key)
    ensures |r| == |s| + 1
    ensures key(r[0]) == if s != [] && key(s[0]) > key(x) then key(s[0]) else key(x)
  {
    if s == [] || key(s[0]) <= key(x) then
      ConsSorted(x, s, key);
      [x] + s
    else
      var t := Insert(x, s[1..], key);
      InsertBehind(x, s, t, key);
      [s[0]] + t
  }

  /** The step of `Insert` that keeps the head in front. */
  lemma InsertBehind<T>(x: T, s: seq<T>, t: seq<T>, key: T -> int)
    requires SortedDesc(s, key) && s != [] && key(s[0]) > key(x)
    requires SortedDesc(t, key) && t != []
    requires key(t[0]) == if s[1..] != [] && key(s[1]) > key(x) then key(s[1]) else key(x)
    ensures SortedDesc([s[0]] + t, key)
  {
    ConsSorted(s[0], t, key);
  }

  /** An element with at least the key of the head of a sorted sequence can
      go in front of it. */
  lemma ConsSorted<T>(x: T, s: seq<T>, key: T -> int)
    requires SortedDesc(s, key)
    requires s == [] || key(x) >= key(s[0])
    ensures SortedDesc([x] + s, key)
  {
    var r := [x] + s;
    forall i, j | 0 <= i < j < |r|
      ensures key(r[i]) >= key(r[j])
    {
      if i == 0 && j > 1 {
        assert key(s[0]) >= key(s[j - 1]);
      }
    }
  }

  /** Inserting `x` puts it first among the elements with its key. */
  lemma {:induction false} InsertWithKey<T>(x: T, s: seq<T>, key: T -> int, k: int)
    requires SortedDesc(s, key)
    ensures WithKey(Insert(x, s, key), key, k) == WithKey([x] + s, key, k)
    decreases |s|
  {
    if s != [] && key(s[0]) > key(x) {
      SortedTail(s, key);
      var t := Insert(x, s[1..], key);
      assert Insert(x, s, key) == [s[0]] + t;
      InsertWithKey(x, s[1..], key, k);
      WithKeyCons(s[0], t, key, k);
      WithKeyCons(x, s[1..], key, k);
      WithKeyCons(x, s, key, k);
      assert s == [s[0]] + s[1..];
      WithKeyCons(s[0], s[1..], key, k);
    }
  }

  lemma SortedTail<T>(s: seq<T>, key: T -> int)
    requires SortedDesc(s, key) && s != []
    ensures SortedDesc(s[1..], key)
  {
    forall i, j | 0 <= i < j < |s| - 1
      ensures key(s[1..][i]) >= key(s[1..][j])
    {
      assert s[1..][i] == s[i + 1] && s[1..][j] == s[j + 1];
    }
  }

  lemma WithKeyCons<T>(y: T, t: seq<T>, key: T -> int, k: int)
    ensures WithKey([y] + t, key, k) == (if key(y) == k then [y] else []) + WithKey(t, key, k)
  {
    assert ([y] + t)[1..] == t;
  }

  /** The stable sort, largest key first. */
  function Sort<T>(s: seq<T>, key: T -> int): (r: seq<T>)
    ensures SortedDesc(r, key)
    ensures |r| == |s|
  {
    if s == [] then []
    else Insert(s[0], Sort(s[1..], key), key)
  }

  /** `Insert` adds `x` and loses nothing. */
  lemma {:induction false} InsertPermutes<T>(x: T, s: seq<T>, key: T -> int)
    requires SortedDesc(s, key)
    ensures multiset(Insert(x, s, key)) == multiset(s) + multiset{x}
    decreases |s|
  {
    if s == [] || key(s[0]) <= key(x) {
      assert Insert(x, s, key) == [x] + s;
    } else {
      SortedTail(s, key);
      var t := Insert(x, s[1..], key);
      calc {
        multiset(Insert(x, s, key));
        { assert Insert(x, s, key) == [s[0]] + t; }
        multiset([s[0]] + t);
        multiset([s[0]]) + multiset(t);
        { InsertPermutes(x, s[1..], key); }
        multiset([s[0]]) + multiset(s[1..]) + multiset{x};
        { assert s == [s[0]] + s[1..]; }
        multiset(s) + multiset{x};
      }
    }
  }

  /** `Sort` is a permutation of its input. */
  lemma {:induction false} SortPermutes<T>(s: seq<T>, key: T -> int)
    ensures multiset(Sort(s, key)) == multiset(s)
  {
    if s != [] {
      var t := Sort(s[1..], key);
      calc {
        multiset(Sort(s, key));
        multiset(Insert(s[0], t, key));
        { InsertPermutes(s[0], t, key); }
        multiset(t) + multiset{s[0]};
        { SortPermutes(s[1..], key); }
        multiset(s[1..]) + multiset{s[0]};
        { assert s == [s[0]] + s[1..]; }
        multiset(s);
      }
    }
  }

  /** `Sort` keeps the relative order of elements with equal keys. */
  lemma {:induction false} SortIsStable<T>(s: seq<T>, key: T -> int)
    ensures Stable(Sort(s, key), s, key)
  {
    if s != [] {
      SortIsStable(s[1..], key);
      forall k
        ensures WithKey(Sort(s, key), key, k) == WithKey(s, key, k)
      {
        var t := Sort(s[1..], key);
        InsertWithKey(s[0], t, key, k);
        assert ([s[0]] + t)[1..] == t;
        assert s == [s[0]] + s[1..];
        assert WithKey([s[0]] + t, key, k)
            == (if key(s[0]) == k then [s[0]] else []) + WithKey(t, key, k);
      }
    }
  }

  /** A non-empty sequence has an element with the key of its head. */
  lemma WithKeyHead<T>(s: seq<T>, key: T -> int)
    requires s != []
    ensures WithKey(s, key, key(s[0])) != []
    ensures WithKey(s, key, key(s[0]))[0] == s[0]
  {
  }

  /** Every element of `WithKey(s, key, k)` occurs in `s`. */
  lemma {:induction false} WithKeyMembers<T>(s: seq<T>, key: T -> int, k: int)
    ensures forall x :: x in WithKey(s, key, k) ==> x in s
  {
    if s != [] {
      WithKeyMembers(s[1..], key, k);
    }
  }

  /** Stability plus order determine the result: any two sequences that are
      sorted and agree on every key's subsequence are equal. So `Sort` is the
      one and only stable sort of its input. */
  lemma {:induction false} StableSortUnique<T>(a: seq<T>, b: seq<T>, key: T -> int)
    requires SortedDesc(a, key) && SortedDesc(b, key)
    requires forall k :: WithKey(a, key, k) == WithKey(b, key, k)
    ensures a == b
    decreases |a| + |b|
  {
    if a == [] {
      if b != [] {
        WithKeyHead(b, key);
        assert false;
      }
    } else if b == [] {
      WithKeyHead(a, key);
      assert false;
    } else {
      HeadKeyIsTop(a, b, key);
      HeadKeyIsTop(b, a, key);
      WithKeyHead(a, key);
      WithKeyHead(b, key);
      assert a[0] == b[0];
      SameTails(a, b, key);
      SortedTail(a, key);
      SortedTail(b, key);
      StableSortUnique(a[1..], b[1..], key);
      assert a == [a[0]] + a[1..];
      assert b == [b[0]] + b[1..];
    }
  }

  /** The head of a sorted sequence has the top key of any sequence with the
      same per-key subsequences. */
  lemma HeadKeyIsTop<T>(a: seq<T>, b: seq<T>, key: T -> int)
    requires SortedDesc(a, key) && a != [] && b != []
    requires forall k :: WithKey(a, key, k) == WithKey(b, key, k)
    ensures key(a[0]) >= key(b[0])
  {
    var kb := key(b[0]);
    WithKeyHead(b, key);
    var wa := WithKey(a, key, kb);
    assert wa != [];
    WithKeyMembers(a, key, kb);
    assert wa[0] in a;
  }

  /** Equal heads leave tails that still agree on every key. */
  lemma SameTails<T>(a: seq<T>, b: seq<T>, key: T -> int)
    requires a != [] && b != [] && a[0] == b[0]
    requires forall k :: WithKey(a, key, k) == WithKey(b, key, k)
    ensures forall k :: WithKey(a[1..], key, k) == WithKey(b[1..], key, k)
  {
    forall k
      ensures WithKey(a[1..], key, k) == WithKey(b[1..], key, k)
    {
      assert a == [a[0]] + a[1..];
      assert b == [b[0]] + b[1..];
      WithKeyCons(a[0], a[1..], key, k);
      WithKeyCons(b[0], b[1..], key, k);
      var p: seq<T> := if key(a[0]) == k then [a[0]] else [];
      assert WithKey(a[1..], key, k) == WithKey(a, key, k)[|p|..];
      assert WithKey(b[1..], key, k) == WithKey(b, key, k)[|p|..];
    }
  }

  /** The largest key of a non-empty sequence is at the front of its sort. */
  lemma SortHeadIsMaximal<T>(s: seq<T>, key: T -> int)
    requires s != []
    ensures forall x :: x in s ==> key(Sort(s, key)[0]) >= key(x)
  {
    var r := Sort(s, key);
    SortPermutes(s, key);
    forall x | x in s
      ensures key(r[0]) >= key(x)
    {
      assert x in multiset(s);
      assert x in multiset(r);
      var i :| 0 <= i < |r| && r[i] == x;
    }
  }
}

=== FILE: stopwatch.dfy ===
/** The stopwatches of script.js: the host's `MM:SS.t`, ticking every 100 ms,
    and the player's `MM:SS`. The two readings of `Date.now()` each tick makes
    are parameters. */
module Stopwatch {
  import opened JsBuiltins

  /** Minutes, seconds and tenths of a second shown by a stopwatch. */
  datatype Reading = Reading(mins: int, secs: int, tenths: int)

  const MsPerMinute: int := 60000
  const MsPerSecond: int := 1000
  const MsPerTenth: int := 100

  /** `now - (gameState?.startTime || Date.now())`: `first` and `now` are the
      two clock readings, in that order; a missing or zero start uses `first`. */
  function Elapsed(startTime: Option<int>, first: int, now: int): (diff: int)
    ensures startTime.Some? && startTime.value != 0 ==> diff == now - startTime.value
    ensures startTime.None? || startTime.value == 0 ==> diff == now - first
  {
    var start := if startTime.Some? && startTime.value != 0 then startTime.value else first;
    now - start
  }

  /** The milliseconds the three fields account for. */
  function Covered(r: Reading): int
  {
    r.mins * MsPerMinute + r.secs * MsPerSecond + r.tenths * MsPerTenth
  }

  /** `Math.floor(diff / 60000)`, `Math.floor((diff % 60000) / 1000)` and
      `Math.floor((diff % 1000) / 100)`, where `%` truncates toward zero and
      `Math.floor` rounds down. For a positive divisor Dafny's `/` rounds
      down, so only `%` needs `JsRem`. */
  function Decompose(diff: int): (r: Reading)
    ensures diff >= 0 ==> r.mins >= 0 && 0 <= r.secs < 60 && 0 <= r.tenths < 10
    ensures diff >= 0 ==> Covered(r) <= diff < Covered(r) + MsPerTenth
    ensures diff < 0 ==> r.mins < 0 && -60 <= r.secs <= 0 && -10 <= r.tenths <= 0
  {
    var r := Reading(diff / MsPerMinute, JsRem(diff, MsPerMinute) / MsPerSecond, JsRem(diff, MsPerSecond) / MsPerTenth);
    if diff >= 0 then DecomposeCovers(diff); r else r
  }

  lemma DecomposeCovers(diff: int)
    requires diff >= 0
    ensures var m, a := diff / 60000, diff % 60000;
      var s, t := a / 1000, (diff % 1000) / 100;
      m * 60000 + s * 1000 + t * 100 <= diff < m * 60000 + s * 1000 + t * 100 + 100
  {
    var m, a := diff / 60000, diff % 60000;
    assert diff == m * 60000 + a;
    var s := a / 1000;
    assert a == s * 1000 + a % 1000;
    assert diff % 1000 == a % 1000 by {
      assert diff == (m * 60 + s) * 1000 + a % 1000;
    }
    var t := (diff % 1000) / 100;
    assert diff % 1000 == t * 100 + (diff % 1000) % 100;
  }

  /** Two decompositions that agree on every field came from the same tenth
      of a second: the reading pins the elapsed time down to 100 ms. */
  lemma DecomposeDeterminesTenth(d1: int, d2: int)
    requires d1 >= 0 && d2 >= 0
    requires Decompose(d1) == Decompose(d2)
    ensures d1 / MsPerTenth == d2 / MsPerTenth
  {
    var r := Decompose(d1);
    var k := r.mins * 600 + r.secs * 10 + r.tenths;
    assert Covered(r) == 100 * k;
    TenthOf(k, d1 - 100 * k);
    TenthOf(k, d2 - 100 * k);
  }

  lemma TenthOf(k: int, x: int)
    requires 0 <= x < 100
    ensures (100 * k + x) / 100 == k
  {
  }

  // ---------------------------------------------------------------------------
  // Display

  /** `n.toString().padStart(2, '0')`. */
  function Pad2(n: int): (s: string)
    ensures |s| >= 2
  {
    PadStartZero(IntString(n), 2)
  }

  /** The host's `${mins}:${secs}.${ms}` with the first two padded. */
  function HostDisplay(r: Reading): (s: string)
    ensures |s| >= 7
  {
    Pad2(r.mins) + ":" + Pad2(r.secs) + "." + IntString(r.tenths)
  }

  /** The player's `${mins}:${secs}`, both padded. */
  function PlayerDisplay(r: Reading): (s: string)
    ensures |s| >= 5
  {
    Pad2(r.mins) + ":" + Pad2(r.secs)
  }

  /** A number below 100 is shown in exactly two digits that read back as it. */
  lemma Pad2RoundTrip(n: int)
    requires 0 <= n < 100
    ensures |Pad2(n)| == 2 && AllDigits(Pad2(n))
    ensures ParseDigits(Pad2(n)) == n
  {
    var d := NatString(n);
    if n < 10 {
      NatStringLength(n, 1);
    } else {
      NatStringLength(n, 2);
    }
    ParseNatString(n);
    ParseLeadingZeros(2 - |d|, d);
  }

  /** Fields that the displays show in their fixed widths. */
  predicate Displayable(r: Reading)
  {
    0 <= r.mins < 100 && 0 <= r.secs < 60 && 0 <= r.tenths < 10
  }

  /** Below 100 minutes every field of a reading fits its display width. */
  lemma DecomposeDisplayable(diff: int)
    requires 0 <= diff < 100 * MsPerMinute
    ensures Displayable(Decompose(diff))
  {
    assert Decompose(diff).mins == diff / MsPerMinute;
  }

  /** The host display of such a reading is exactly `MM:SS.t`, and its digit
      groups read back as the three fields. */
  lemma HostShows(r: Reading)
    requires Displayable(r)
    ensures var s := HostDisplay(r);
      && |s| == 7 && s[2] == ':' && s[5] == '.'
      && AllDigits(s[..2]) && ParseDigits(s[..2]) == r.mins
      && AllDigits(s[3..5]) && ParseDigits(s[3..5]) == r.secs
      && AllDigits(s[6..]) && ParseDigits(s[6..]) == r.tenths
  {
    Pad2RoundTrip(r.mins);
    Pad2RoundTrip(r.secs);
    NatStringLength(r.tenths, 1);
    ParseNatString(r.tenths);
    var s := HostDisplay(r);
    assert s[..2] == Pad2(r.mins);
    assert s[3..5] == Pad2(r.secs);
    assert s[6..] == IntString(r.tenths);
  }

  /** The player display of such a reading is exactly `MM:SS`, reading back
      as the minutes and seconds. */
  lemma PlayerShows(r: Reading)
    requires Displayable(r)
    ensures var s := PlayerDisplay(r);
      && |s| == 5 && s[2] == ':'
      && AllDigits(s[..2]) && ParseDigits(s[..2]) == r.mins
      && AllDigits(s[3..]) && ParseDigits(s[3..]) == r.secs
  {
    Pad2RoundTrip(r.mins);
    Pad2RoundTrip(r.secs);
    var s := PlayerDisplay(r);
    assert s[..2] == Pad2(r.mins);
    assert s[3..] == Pad2(r.secs);
  }

  /** Below 100 minutes the host's stopwatch shows `MM:SS.t` reading back as
      the elapsed minutes, seconds and tenths. */
  lemma HostDisplayRoundTrip(diff: int)
    requires 0 <= diff < 100 * MsPerMinute
    ensures var r := Decompose(diff); var s := HostDisplay(r);
      && |s| == 7 && s[2] == ':' && s[5] == '.'
      && AllDigits(s[..2]) && ParseDigits(s[..2]) == r.mins
      && AllDigits(s[3..5]) && ParseDigits(s[3..5]) == r.secs
      && AllDigits(s[6..]) && ParseDigits(s[6..]) == r.tenths
  {
    DecomposeDisplayable(diff);
    HostShows(Decompose(diff));
  }

  /** The host display of `r` is exactly `MM:SS.t`, its digit groups read
      back as the fields of `r`, and those fields account for `d`
      milliseconds to within a tenth of a second. */
  predicate ShowsElapsed(r: Reading, d: int)
  {
    var s := HostDisplay(r);
    && Covered(r) <= d < Covered(r) + MsPerTenth
    && |s| == 7 && s[2] == ':' && s[5] == '.'
    && AllDigits(s[..2]) && ParseDigits(s[..2]) == r.mins
    && AllDigits(s[3..5]) && ParseDigits(s[3..5]) == r.secs
    && AllDigits(s[6..]) && ParseDigits(s[6..]) == r.tenths
  }

  /** Below 100 minutes the host's display of an elapsed time shows it. */
  lemma HostShowsElapsed(d: int)
    requires 0 <= d < 100 * MsPerMinute
    ensures ShowsElapsed(Decompose(d), d)
  {
    HostDisplayRoundTrip(d);
  }

  /** Below 100 minutes the player's stopwatch shows `MM:SS` reading back as
      the elapsed minutes and seconds. */
  lemma PlayerDisplayRoundTrip(diff: int)
    requires 0 <= diff < 100 * MsPerMinute
    ensures var r := Decompose(diff); var s := PlayerDisplay(r);
      && |s| == 5 && s[2] == ':'
      && AllDigits(s[..2]) && ParseDigits(s[..2]) == r.mins
      && AllDigits(s[3..]) && ParseDigits(s[3..]) == r.secs
  {
    DecomposeDisplayable(diff);
    PlayerShows(Decompose(diff));
  }

  /** A start stamp later than the clock shows a negative reading: one
      millisecond early reads `-1:-1.-1` on the host. */
  lemma FutureStartReadsNegative()
    ensures Decompose(-1) == Reading(-1, -1, -1)
  {
  }
}
